=== FILE: README.md ===
# Streaming hypothesis extraction, modelled in Dafny

The backend of the hypothesis generator streams an LLM agent's output to its
client. Two pieces of pure logic sit inside that stream:

- `extract_hypotheses` (backend/backend_utils.py) scans a text buffer for
  "```json ... ```" blocks. It decodes each block. It keeps the objects that
  carry the six required keys, and stamps each kept object with
  `_extracted = True` and a 1-based `_id`.
- `run_stream_with_extraction` (backend/openai_agent.py) wraps `run_stream`.
  It forwards every event. After each text delta it re-scans the growing
  buffer and announces every new hypothesis with a progress string and a
  summary. It pairs tool calls with tool outputs first-in first-out, and it
  closes with one `extraction_complete` event.

`run_stream` turns the SDK's events into the pipeline's own `text`,
`tool_call`, `tool_output` and `message` events. It also builds the tool-call
record and the display string shown for each call.

The model is functional. Its parts:

- JSON values are a datatype (`Json.Json`).
- `json.loads` is a parameter `parse: string -> Option<Json>`. None stands
  for a decode error.
- Python's `str()` of a value other than a string is a parameter `show`.
- The clock readings are strings carried by the SDK events.
- `duration_ms` is a parameter, because it comes from `datetime.fromisoformat`.
- The asynchronous generator is a fold, `Orchestrator.Feed`, over a sequence
  of events. Its state holds:
  - the buffer;
  - the count reported so far;
  - the tool bookkeeping (`Orchestrator.Tools`): the pending queue and the
    completed interactions.
- A step whose summary raises ends the fold with `raised` set. In the source
  that exception ends the generator.

Modules:

- `Wrappers`: `Option`.
- `Text`: whitespace, `strip`, slicing and decimal formatting.
- `Json`: values and dict lookup and assignment.
- `Fences`: the regular expression's matches.
- `Extractor`: `extract_hypotheses`.
- `ToolEvents`: `run_stream`.
- `Messages`: the progress, summary and completion strings.
- `Orchestrator`: the fold, over any extractor.
- `Pipeline`: the fold with `extract_hypotheses` as its extractor, fed by
  `run_stream`.

Dafny functions are deterministic. So `extract_hypotheses` is modelled as
pure, which is what the re-scan of the whole buffer relies on.

Three behaviours of the code worth knowing:

- A block holding a JSON array is skipped, not split into several records.
  For a list, `field in hypothesis` is a membership test. It is false for
  some required name, so the block is skipped as incomplete. Only a list that
  holds all six names passes, and then the item assignment raises, which the
  extractor catches. A string behaves the same way through substring tests. For
  a number, a bool or null the key test itself raises, and that is caught too.
- A hypothesis whose `claim` is neither a string, a list nor missing makes the
  summary's slice raise. That exception is not caught, so the generator stops
  (`raised`).
- `extraction_complete` is emitted only when a hypothesis was found or a tool
  call completed.

## Model

| member | source | states |
|---|---|---|
| Fences.Blocks | backend/backend_utils.py:57-58 | every match of the fence pattern is already stripped and holds no "```" |
| Fences.BlocksAtOpener | backend/backend_utils.py:57-58 | at an opener, the match is the text up to the first "```" after it, stripped, and scanning resumes after that fence; with no fence after the opener nothing matches |
| Fences.FailedOpenerNoBlocks | backend/backend_utils.py:57-58 | an opener with no fence after it leaves the rest of the buffer without any match |
| Fences.NoFenceNoBlocks | backend/backend_utils.py:57-58 | text without "```" holds no match |
| Fences.ShortNoBlocks | backend/backend_utils.py:57-58 | text shorter than "```json" holds no match |
| Fences.BlocksExtend | backend/backend_utils.py:57-58 | appending text never changes or retracts a match already found: the old list is a prefix of the new |
| Fences.MatchExtend | backend/backend_utils.py:57-58 | once its closing fence is in the buffer, an opener's match is settled whatever text follows |
| Fences.ProseSkipped | backend/backend_utils.py:57-58 | prose without backticks contributes no match and does not change what follows, whatever follows |
| Fences.ProseBeforeOpenerSkipped | backend/backend_utils.py:57-58 | prose holding no "```json", inline code and fences of other languages included, contributes no match before a block and does not change the block's match |
| Fences.BlockRoundTrip | backend/backend_utils.py:57-58 | a block written as opener, newline, content, newline, fence gives back exactly its stripped, fence-free content, followed by the matches of the rest |
| Fences.BlocksOfRender | backend/backend_utils.py:57-58 | on output of prose (with no "```json" in it) and blocks, the matches are the blocks' contents in order, then the matches of the tail |
| Fences.UnclosedBlockIgnored | backend/backend_utils.py:57-58 | after such prose and blocks, a trailing opener whose fence has not arrived adds nothing |
| Text.LeadingSpace | backend/backend_utils.py:57 | the greedy `\s*` after the opener takes the longest all-whitespace prefix, stopping at a non-space or the end |
| Text.TrimEnd | backend/backend_utils.py:57 | the lazy group gives its trailing whitespace back to the second `\s*`: a prefix that ends in a non-space, followed only by whitespace |
| Text.Strip | backend/backend_utils.py:64 | `strip()`: a result no longer than the input, whose first and last characters are not whitespace |
| Text.StripKeepsMiddle | backend/backend_utils.py:64 | `strip()` keeps exactly the text after the leading whitespace, up to where only whitespace remains |
| Text.StripStripped | backend/backend_utils.py:64 | `strip()` of text with no surrounding whitespace is that text, so the extractor's `match.strip()` changes no match |
| Extractor.Decode | backend/backend_utils.py:61-64 | one decode result per match |
| Extractor.Accept | backend/backend_utils.py:64-88 | a decoded block is kept exactly when it is a dict holding the six required keys, and it is kept unchanged |
| Extractor.Valid | backend/backend_utils.py:70 | every dict kept by validation has the six required keys |
| Extractor.Collect | backend/backend_utils.py:60-74 | the loop keeps at most one dict per decoded match; the i-th kept dict has all required keys and id next + i |
| Extractor.Records | backend/backend_utils.py:46-90 | at most one record per complete block, ids 1, 2, ... in order, each with the six keys |
| Extractor.Extract | backend/backend_utils.py:46-90 | the result has at most as many dicts as the buffer has complete blocks |
| Extractor.StampedDict | backend/backend_utils.py:72-73 | a stamped dict has `_extracted` true and `_id` its id, and keeps every other key's value, the six required ones included |
| Json.Put | backend/backend_utils.py:72-73 | item assignment: the key then holds the new value, every other key keeps its value, existing keys keep their positions, and the length grows by one only for a new key |
| Json.Replace | backend/backend_utils.py:72-73 | overwriting a present key changes only the values stored under it |
| Json.LookupReplace | backend/backend_utils.py:72-73 | after overwriting, the key reads back the new value |
| Json.LookupReplaceOther | backend/backend_utils.py:72-73 | overwriting one key leaves every other key's value |
| Json.LookupAppend | backend/backend_utils.py:72-73 | a new key added at the end reads back its value, and other keys are unaffected |
| Fences.FindFence | backend/backend_utils.py:57 | the index of the first "```", where the lazy group stops, or None when there is no fence |
| Extractor.ExtractedAreHypotheses | backend/backend_utils.py:67-74 | every returned dict has the six required keys, `_extracted` true and `_id` equal to its 1-based position |
| Extractor.CollectIsStampedValid | backend/backend_utils.py:61-74 | the records are exactly the dicts that pass validation, in block order, each stamped with the next id |
| Extractor.CollectAppend | backend/backend_utils.py:61-74 | over a split list of matches, the second part's ids continue where the first part's stop |
| Extractor.SkippedBlockTakesNoId | backend/backend_utils.py:70-88 | removing a block that fails to decode or validate changes nothing in the result, ids included |
| Extractor.ValidationIgnoresValues | backend/backend_utils.py:70 | validation looks only at keys: dicts with the same keys pass or fail together, whatever their values (null included) |
| Extractor.SameKeysSameLookupPresence | backend/backend_utils.py:70 | key presence depends on the keys alone |
| Extractor.NonObjectSkipped | backend/backend_utils.py:81-88 | a block that fails to decode or decodes to anything but a dict, an array included, yields no record |
| Extractor.ExtractExtend | backend/backend_utils.py:46-90 | growing the buffer never retracts or renumbers a returned dict: the old list is a prefix of the new |
| Extractor.ExtractOfRender | backend/backend_utils.py:58-74 | on output of prose (with no "```json" in it) and blocks, the records come from the blocks' contents in order |
| Extractor.UnclosedBlockAddsNothing | backend/backend_utils.py:57-58 | after such prose and blocks, an opened block still waiting for its fence adds no dict |
| Extractor.SingleBlockScenario | backend/backend_utils.py:46-90 | one well-formed hypothesis block gives one dict, with `_id` 1 |
| Extractor.DuplicateBlocksScenario | backend/backend_utils.py:58-74 | two identical blocks give two records, ids 1 and 2: there is no de-duplication |
| ToolEvents.ParseArguments | backend/openai_agent.py:84-92 | missing or empty arguments give None; JSON arguments give their decoded value; anything else becomes the one-key dict `raw_arguments` |
| ToolEvents.TruncateForDisplay | backend/openai_agent.py:103-106 | a string longer than 50 characters is shown as its first 47 and "..." (50 in all); shorter strings and other values are shown as they are |
| ToolEvents.TruncateIdempotent | backend/openai_agent.py:103-106 | a shown value is never cut again |
| ToolEvents.Params | backend/openai_agent.py:102-107 | one "key: value" string per parameter, in order, the value cut for display |
| ToolEvents.Display | backend/openai_agent.py:95-109 | the display string starts "Calling tool: <name>" and adds nothing unless the arguments are a non-empty dict |
| ToolEvents.DisplayOneParam | backend/openai_agent.py:98-109 | a single parameter, with no query to search for, is shown as " - Parameters: " and its `key: value` |
| ToolEvents.DisplayFirstTwoParams | backend/openai_agent.py:98-109 | with two or more parameters and no query to search for, the display is " - Parameters: " and the first two `key: value` strings joined by ", " |
| ToolEvents.SearchShowsWholeQuery | backend/openai_agent.py:97-98 | a literature search with a query shows "Searching for: '<query>'", however long the query |
| ToolEvents.DisplayShowsTwoParams | backend/openai_agent.py:102 | parameters after the second never reach the display string |
| ToolEvents.LongParamTruncated | backend/openai_agent.py:101-109 | a long string parameter is shown as key, its first 47 characters and "..." |
| ToolEvents.UnparsedArgumentsShownRaw | backend/openai_agent.py:88-109 | arguments that are not JSON are shown as the `raw_arguments` parameter, for a literature search too |
| ToolEvents.StringOutputLength | backend/openai_agent.py:122 | a string output's length is its own length, the empty string included |
| ToolEvents.Translate | backend/openai_agent.py:74-133 | a text delta, a tool call and a tool output each give exactly one event of the matching kind, carrying the SDK's delta, name, output and clock reading; a call's `input_args` are the parsed arguments and its `data` their display string; an output's `output_length` is `OutputLength` of it; a message event needs non-empty text |
| ToolEvents.TranslateAll | backend/openai_agent.py:73-133 | the stream has at most one event per SDK event |
| ToolEvents.TranslateKeepsText | backend/openai_agent.py:74-76 | the text deltas yielded concatenate to the SDK's deltas |
| ToolEvents.TranslateKeepsCalls | backend/openai_agent.py:78-115 | the tool calls yielded carry the SDK's tool names, in order |
| ToolEvents.TranslateKeepsOutputs | backend/openai_agent.py:116-129 | one tool output is yielded per SDK tool output |
| Text.NatToString | backend/openai_agent.py:221 | `str(k)` of a count: decimal digits spelling k, with no leading zero |
| Text.IntToString | backend/openai_agent.py:221 | `str(e)` of an integer: its digits, after a "-" when negative |
| Text.Join | backend/openai_agent.py:109 | `', '.join`: empty for no parts, the part itself for one, and the two parts around the separator for two |
| Text.JoinAppend | backend/openai_agent.py:109 | joining one more part appends the separator and that part, so the parts appear in order with one separator between neighbours |
| Text.Take | backend/openai_agent.py:230 | the `[:80]` slice: a prefix of length min(80, length) |
| Messages.Progress | backend/openai_agent.py:221 | progress begins with the count; it is longer exactly when the expected count is truthy, and then continues "/" and the expected count |
| Messages.ProgressReadBack | backend/openai_agent.py:221 | the count can be read back from the progress string, and an expected count of 0 or None leaves no trace |
| Messages.ProgressExamples | backend/openai_agent.py:221 | "2/3" for 2 of 3; "2" with no expected count or an expected count of 0; "12/-1" for a negative one |
| Messages.ClaimExcerpt | backend/openai_agent.py:230 | only a dict has an excerpt; a missing claim gives the empty excerpt; a string claim its first 80 characters; a list claim its first 80 items, formatted; a claim of any other kind (null, bool, number, dict) raises |
| Messages.StringClaimExcerpt | backend/openai_agent.py:230 | a string claim contributes its first 80 characters, unchanged |
| Messages.SummaryOfStringClaim | backend/openai_agent.py:228-231 | for a string claim the summary starts with the id, holds the claim's first 80 characters and ends in "..." |
| Messages.ExpectedNote | backend/openai_agent.py:245 | the note is non-empty exactly when the expected count is truthy, and is then " (expected ", the count's digits and ")" |
| Messages.CompleteMessage | backend/openai_agent.py:242-247 | the closing message starts "Successfully extracted " |
| Messages.CompleteMessageAsWritten | backend/openai_agent.py:242-247 | the message as the code builds it also starts "Successfully extracted " |
| Messages.AsWrittenLonger | backend/openai_agent.py:243-244 | the code's message is two characters longer than the intended one for every count other than 1, and as long for 1 |
| Messages.CompleteMessageShape | backend/openai_agent.py:242-247 | the closing message: the count, then "hypothesis" exactly when the count is 1 and "hypotheses" otherwise, then exactly the expected note (so " (expected" appears exactly when the expected count is truthy), then the tool-call label and the number of completed interactions, at the very end |
| Messages.MessageNoun | backend/openai_agent.py:243-244 | the noun after the count is singular exactly for a count of 1 |
| Messages.MessageExpected | backend/openai_agent.py:245-246 | right after the noun come exactly the expected note, then the tool-call label and count; " (expected" stands there exactly when the expected count is truthy |
| Messages.MessageEndsWithCalls | backend/openai_agent.py:246 | the message ends with the number of completed interactions |
| Messages.AsWrittenPluralMisspelled | backend/openai_agent.py:243-244 | as written, every count other than 1 gives "hypothesises" |
| Messages.AsWrittenPluralDiffers | backend/openai_agent.py:243-244 | as written, the message for every count other than 1 differs from the intended one |
| Messages.AsWrittenSingularAgrees | backend/openai_agent.py:243-244 | for a count of 1 the message as written is the intended one |
| Orchestrator.Pair | backend/openai_agent.py:178-193 | the interaction gives back both the call and the output it was built from (`CallOf`, `OutputOf`), and its duration is the one computed from their two timestamps |
| Orchestrator.CorrelateKeepsCalls | backend/openai_agent.py:169-195 | no step loses or duplicates a call: paired calls, then pending ones, keep arrival order |
| Orchestrator.Announce | backend/openai_agent.py:216-232 | one `hypothesis_found` per new hypothesis, each event a `hypothesis_found`, stopping early only where a summary raises |
| Orchestrator.AnnounceReports | backend/openai_agent.py:216-232 | the i-th announcement carries the i-th new hypothesis, the next consecutive id, its progress and its summary |
| Orchestrator.AnnounceRaises | backend/openai_agent.py:216-232 | the announcing stops exactly at a hypothesis whose summary raises |
| Orchestrator.Step | backend/openai_agent.py:164-232 | the event is yielded first; the tool bookkeeping is `Correlate`; non-text events leave buffer and count alone; a text delta extends the buffer and sets the count to max(old, number extracted), the number announced |
| Orchestrator.UnmatchedOutputIgnored | backend/openai_agent.py:176 | a tool output with nothing pending is yielded and changes nothing |
| Orchestrator.StepAnnounces | backend/openai_agent.py:209-232 | after a text delta, the events following the forwarded one announce the new hypotheses in order with consecutive ids |
| Orchestrator.StepRaises | backend/openai_agent.py:228-231 | a step raises exactly at the first new hypothesis without a summary |
| Orchestrator.Feed | backend/openai_agent.py:164-232 | the fold never yields `extraction_complete` |
| Orchestrator.Finish | backend/openai_agent.py:236-248 | the closing event comes exactly when something was found or a call completed, with the count, the expected count, the interactions and the message |
| Orchestrator.StepForwardsItsEvent | backend/openai_agent.py:199 | each step re-yields exactly its own event |
| Orchestrator.FeedForwardsAll | backend/openai_agent.py:164-199 | every event is re-yielded unchanged and in order; a raise stops after a prefix of them |
| Orchestrator.FeedBuffer | backend/openai_agent.py:206 | the buffer is the concatenation of all text deltas |
| Orchestrator.FeedTools | backend/openai_agent.py:166-195 | the fold's tool bookkeeping is the bookkeeping of the events alone, in order |
| Orchestrator.StepFinds | backend/openai_agent.py:202-232 | a step that does not raise announces exactly the hypotheses its text added and keeps the count equal to the number extracted |
| Orchestrator.FeedFinds | backend/openai_agent.py:202-232 | a fold that does not raise announces every hypothesis exactly once, in the extractor's order, with consecutive ids, however the text is split |
| Orchestrator.FeedNeverRaises | backend/openai_agent.py:228-231 | if every hypothesis of the whole text has a summary, the fold never raises |
| Orchestrator.KeepsCalls | backend/openai_agent.py:169-195 | over a stream, the paired calls followed by the pending ones are exactly the calls seen, in arrival order |
| Orchestrator.CountsPairs | backend/openai_agent.py:176-195 | one interaction per output that found a pending call, and none otherwise |
| Orchestrator.FifoPairing | backend/openai_agent.py:176-195 | when outputs never run ahead of calls, the i-th output is paired with the i-th call and the unanswered calls wait in order |
| Orchestrator.PairsInOrder | backend/openai_agent.py:176-195 | from an empty queue, the interactions are the calls and outputs zipped in order, each keeping its call's tool name |
| Orchestrator.Run | backend/openai_agent.py:164-248 | the generator as a whole: `extraction_complete` comes at most once and only last, exactly when nothing raised and something was found or a call completed, and it reports the final count, the expected count, the interactions and the message |
| Orchestrator.RunForwards | backend/openai_agent.py:164-199 | a run re-yields every event in order, and the closing event re-yields nothing |
| Orchestrator.RunFinds | backend/openai_agent.py:202-236 | a run that does not raise announces the hypotheses of the whole text, each once, with ids 1, 2, ..., and the final count is their number |
| Orchestrator.RunTools | backend/openai_agent.py:160-195 | a run hands over the tool bookkeeping of the whole stream from an empty queue |
| Orchestrator.RunNeverRaises | backend/openai_agent.py:228-231 | a run raises only if some hypothesis of the whole text has no summary |
| Pipeline.ExpectedCount | backend/openai_agent.py:155 | `expected_count` is the context's `number_of_hypothesis`, None without a context, and truthy exactly for a context with a non-zero count |
| Pipeline.RunWithExtraction | backend/openai_agent.py:135-248 | the generator over `run_stream`'s events with `extract_hypotheses` as the extractor; its closing event reports the context's expected count |
| Pipeline.ExtractorGrows | backend/openai_agent.py:206-212 | `extract_hypotheses` never retracts a dict as the buffer grows, and finds none in the empty buffer |
| Pipeline.ExtractsStreamedText | backend/openai_agent.py:206-209 | the buffer scanned at the end is all of the SDK's text deltas |
| Pipeline.ForwardsEverything | backend/openai_agent.py:164-199 | every event `run_stream` yields is passed on unchanged and in order |
| Pipeline.AnnouncesAllHypotheses | backend/openai_agent.py:202-232 | the i-th `hypothesis_found` carries the i-th dict `extract_hypotheses` finds in all the streamed text, id i + 1 and its progress |
| Pipeline.AnnouncedAreStamped | backend/openai_agent.py:222-226 | every announced dict has the six keys, `_extracted` true and `_id` equal to the event's id |
| Pipeline.CompletionReportsTotals | backend/openai_agent.py:236-248 | the closing event reports the number of dicts in all the streamed text, the expected count and the paired interactions |
| Pipeline.InteractionsPairInOrder | backend/openai_agent.py:166-195 | when outputs never run ahead of calls, the interactions pair the i-th call with the i-th output, one per SDK output, with the SDK's call names in order |
| Pipeline.FormattableClaimsNeverRaise | backend/openai_agent.py:228-231 | when every extracted claim is a string, a list or missing, the generator runs to the end |

## Left out

- `create_model` (backend/backend_utils.py:9-43): environment reads and SDK client construction.
- backend/app.py, backend/context.py's prompt text, backend/tools.py and the root-level copies: transport, prompt text and SDK configuration. Only `ResearchContext`'s two fields are modelled (`Pipeline.ResearchContext`).
- `OpenAIAgentWrapper.run` and `Runner.run_streamed`: the SDK's events are an input sequence of `ToolEvents.RawEvent`.
- `ItemHelpers.text_message_output`: a message event carries its text.
- `json.loads`: a parameter; its grammar and its errors are not modelled. Dicts with duplicate keys are not excluded. For them, `Json.Lookup` takes the first occurrence, while Python keeps the last value.
- `str()` and f-string formatting of values other than strings: a parameter.
- `datetime.now().isoformat()`: the clock reading arrives with each SDK event. The float arithmetic of `duration_ms` (backend/openai_agent.py:188-193) is a parameter returning None where parsing raises.
- Debug and validation `print` calls: console output only.
- Asynchrony: the generator is a sequential fold. A raised exception is the `raised` flag, and the events yielded before it are kept.
- `expected_count` is modelled as an integer or None. The source reads any attribute value, but `ResearchContext` declares an int.
- Fences.UnclosedBlockIgnored: the prose before each block may hold inline code and fences of other languages, but not "```json". Such an opener would start a match of its own.
- Extractor.UnclosedBlockAddsNothing: the same condition on the prose, for the same reason.
- Orchestrator.Finish: the closing message is the corrected `Messages.CompleteMessage` ("hypotheses"), not the code's "hypothesises" for counts other than 1 (see Findings).
- Orchestrator.Run: the same corrected message.
- Pipeline.CompletionReportsTotals: the same corrected message.
- Orchestrator.Feed: states only that no closing event appears. What the fold yields is stated by `FeedForwardsAll`, `FeedFinds` and `FeedTools`.
- Orchestrator.Announce: its contract gives counts and event kinds only. The contents are stated by `AnnounceReports` and `AnnounceRaises`.

## Findings

| source | as written | input that shows it | evidently intended | confidence | as-written member | corrected member |
|---|---|---|---|---|---|---|
| backend/openai_agent.py:243-244 | "hypothesis" followed by "es" whenever the count is not 1 | 2 hypotheses give "Successfully extracted 2 hypothesises ..." | "hypotheses" | not executed | Messages.AsWrittenPluralMisspelled | Messages.CompleteMessageShape |

The model uses the corrected message (`Messages.CompleteMessage`). The code's
message is `Messages.CompleteMessageAsWritten`.

=== FILE: extractor.dfy ===
/** `extract_hypotheses`: the validated hypothesis records found in a text buffer. */
module Extractor {
  import opened Wrappers
  import opened Text
  import opened Json
  import opened Fences

  /** Python's `json.loads` on a string: the decoded value, or None where it raises. */
  type Parser = string -> Option<Json>

  const RequiredFields: seq<string> := ["claim", "dataset", "metric", "baseline", "success_threshold", "budget"]

  /** Every required key is present; their values are not inspected. */
  predicate HasRequiredFields(fs: seq<Field>) {
    forall k :: k in RequiredFields ==> HasKey(fs, k)
  }

  /** `json.loads(match.strip())` for every match, in order. */
  function Decode(parse: Parser, blocks: seq<string>): (r: seq<Option<Json>>)
    ensures |r| == |blocks|
  {
    seq(|blocks|, i requires 0 <= i < |blocks| => parse(Strip(blocks[i])))
  }

  lemma DecodeAppend(parse: Parser, b1: seq<string>, b2: seq<string>)
    ensures Decode(parse, b1 + b2) == Decode(parse, b1) + Decode(parse, b2)
  {
  }

  /**
   * The dict a decoded block contributes, if any. A block that did not parse,
   * or parsed to anything but a dict, or to a dict missing a required key, is
   * skipped. For a list or a string the key test is a membership test: it is
   * false for some name, and the block is skipped as incomplete, unless all
   * six names occur, when the item assignment raises. For a number, a bool or
   * null the key test itself raises. The extractor catches every exception.
   */
  function Accept(v: Option<Json>): (r: Option<seq<Field>>)
    ensures r.Some? <==> v.Some? && v.value.JObject? && HasRequiredFields(v.value.fields)
    ensures r.Some? ==> v == Some(JObject(r.value))
  {
    match v
    case Some(JObject(fs)) => if HasRequiredFields(fs) then Some(fs) else None
    case _ => None
  }

  /** A hypothesis kept by the extractor: the parsed dict and the id it was given. */
  datatype Record = Record(base: seq<Field>, id: nat) {

    /** The dict as returned, after `hypothesis['_extracted'] = True` and `hypothesis['_id'] = id`. */
    function Dict(): Json {
      JObject(Put(Put(base, "_extracted", JBool(true)), "_id", JInt(id)))
    }
  }

  /** A returned dict: every required key present, `_extracted` true and `_id` equal to `id`. */
  predicate IsHypothesis(v: Json, id: int) {
    && v.JObject?
    && HasRequiredFields(v.fields)
    && Lookup(v.fields, "_extracted") == Some(JBool(true))
    && Lookup(v.fields, "_id") == Some(JInt(id))
  }

  /** The two metadata assignments leave every required key in place and touch no other key. */
  lemma StampedDict(r: Record)
    requires HasRequiredFields(r.base)
    ensures IsHypothesis(r.Dict(), r.id)
    ensures forall k :: k != "_extracted" && k != "_id" ==> Lookup(r.Dict().fields, k) == Lookup(r.base, k)
  {
    assert forall k :: k in RequiredFields ==> k != "_extracted" && k != "_id";
  }

  /** The loop over the decoded matches, with `next` the id the next kept dict receives. */
  function Collect(decoded: seq<Option<Json>>, next: nat): (r: seq<Record>)
    ensures |r| <= |decoded|
    ensures forall i :: 0 <= i < |r| ==> r[i].id == next + i && HasRequiredFields(r[i].base)
  {
    if |decoded| == 0 then []
    else
      match Accept(decoded[0])
      case Some(fs) => [Record(fs, next)] + Collect(decoded[1..], next + 1)
      case None => Collect(decoded[1..], next)
  }

  /** The records behind `extract_hypotheses(buffer)`: ids 1, 2, ... in order, at most one per complete block. */
  function Records(parse: Parser, buffer: string): (r: seq<Record>)
    ensures |r| <= |Blocks(buffer)|
    ensures forall i :: 0 <= i < |r| ==> r[i].id == i + 1 && HasRequiredFields(r[i].base)
  {
    Collect(Decode(parse, Blocks(buffer)), 1)
  }

  function Dicts(rs: seq<Record>): (r: seq<Json>)
    ensures |r| == |rs|
  {
    seq(|rs|, i requires 0 <= i < |rs| => rs[i].Dict())
  }

  /** `extract_hypotheses(buffer)`: the returned list of dicts. */
  function Extract(parse: Parser, buffer: string): (r: seq<Json>)
    ensures |r| <= |Blocks(buffer)|
  {
    Dicts(Records(parse, buffer))
  }

  /**
   * Every returned dict has all six required keys, `_extracted` set to true,
   * and `_id` equal to its 1-based position in the list.
   */
  lemma ExtractedAreHypotheses(parse: Parser, buffer: string)
    ensures forall i :: 0 <= i < |Extract(parse, buffer)| ==> IsHypothesis(Extract(parse, buffer)[i], i + 1)
  {
    var rs := Records(parse, buffer);
    forall i | 0 <= i < |rs| ensures IsHypothesis(Extract(parse, buffer)[i], i + 1) {
      StampedDict(rs[i]);
    }
  }

  /** The dicts that pass validation, in block order. */
  function Valid(decoded: seq<Option<Json>>): (r: seq<seq<Field>>)
    ensures forall i :: 0 <= i < |r| ==> HasRequiredFields(r[i])
  {
    if |decoded| == 0 then []
    else
      match Accept(decoded[0])
      case Some(fs) => [fs] + Valid(decoded[1..])
      case None => Valid(decoded[1..])
  }

  /**
   * The records are exactly the valid dicts in block order, each stamped with
   * the next id: a skipped block never consumes an id.
   */
  lemma {:induction false} CollectIsStampedValid(decoded: seq<Option<Json>>, next: nat)
    ensures |Collect(decoded, next)| == |Valid(decoded)|
    ensures forall i :: 0 <= i < |Valid(decoded)| ==>
      Collect(decoded, next)[i] == Record(Valid(decoded)[i], next + i)
  {
    if |decoded| > 0 {
      CollectIsStampedValid(decoded[1..], next + 1);
      CollectIsStampedValid(decoded[1..], next);
    }
  }

  /** The loop over a split list of matches: the second part's ids continue where the first part's stop. */
  lemma {:induction false} CollectAppend(d1: seq<Option<Json>>, d2: seq<Option<Json>>, next: nat)
    ensures Collect(d1 + d2, next) == Collect(d1, next) + Collect(d2, next + |Collect(d1, next)|)
  {
    if |d1| == 0 {
      assert d1 + d2 == d2;
    } else {
      assert (d1 + d2)[0] == d1[0];
      assert (d1 + d2)[1..] == d1[1..] + d2;
      match Accept(d1[0])
      case Some(fs) =>
        CollectAppend(d1[1..], d2, next + 1);
      case None =>
        CollectAppend(d1[1..], d2, next);
    }
  }

  /** Removing a block that fails validation changes nothing in the result, ids included. */
  lemma SkippedBlockTakesNoId(d1: seq<Option<Json>>, bad: Option<Json>, d2: seq<Option<Json>>)
    requires Accept(bad).None?
    ensures Collect(d1 + [bad] + d2, 1) == Collect(d1 + d2, 1)
  {
    CollectAppend(d1, [bad] + d2, 1);
    assert d1 + [bad] + d2 == d1 + ([bad] + d2);
    assert ([bad] + d2)[1..] == d2;
    CollectAppend(d1, d2, 1);
  }

  /** Whether a dict passes depends only on its keys, never on its values (null values pass). */
  lemma {:induction false} SameKeysSameLookupPresence(fs: seq<Field>, gs: seq<Field>, k: string)
    requires |fs| == |gs|
    requires forall i :: 0 <= i < |fs| ==> fs[i].key == gs[i].key
    ensures HasKey(fs, k) == HasKey(gs, k)
  {
    if |fs| > 0 && fs[0].key != k {
      SameKeysSameLookupPresence(fs[1..], gs[1..], k);
    }
  }

  lemma ValidationIgnoresValues(fs: seq<Field>, gs: seq<Field>)
    requires |fs| == |gs|
    requires forall i :: 0 <= i < |fs| ==> fs[i].key == gs[i].key
    ensures Accept(Some(JObject(fs))).Some? <==> Accept(Some(JObject(gs))).Some?
  {
    forall k | k in RequiredFields ensures HasKey(fs, k) == HasKey(gs, k) {
      SameKeysSameLookupPresence(fs, gs, k);
    }
  }

  /** A block that decodes to anything other than a dict (an array included) is skipped, never split. */
  lemma NonObjectSkipped(v: Option<Json>)
    requires v.Some? ==> !v.value.JObject?
    ensures Collect([v], 1) == []
  {
  }

  lemma DictsPrefix(rs: seq<Record>, ts: seq<Record>)
    requires rs <= ts
    ensures Dicts(rs) <= Dicts(ts)
  {
  }

  /** Growing the buffer never retracts or renumbers a record: the old list is a prefix of the new. */
  lemma ExtractExtend(parse: Parser, a: string, b: string)
    ensures Extract(parse, a) <= Extract(parse, a + b)
  {
    BlocksExtend(a, b);
    var more := Blocks(a + b)[|Blocks(a)|..];
    assert Blocks(a + b) == Blocks(a) + more;
    DecodeAppend(parse, Blocks(a), more);
    CollectAppend(Decode(parse, Blocks(a)), Decode(parse, more), 1);
    DictsPrefix(Records(parse, a), Records(parse, a + b));
  }

  /** On rendered model output, the records come from the blocks' contents in order. */
  lemma ExtractOfRender(parse: Parser, gs: seq<Segment>, tail: string)
    requires forall i :: 0 <= i < |gs| ==> WellFormed(gs[i])
    ensures Records(parse, Render(gs) + tail) == Collect(Decode(parse, Contents(gs) + Blocks(tail)), 1)
  {
    BlocksOfRender(gs, tail);
  }

  /** A block still waiting for its closing fence contributes nothing. */
  lemma UnclosedBlockAddsNothing(parse: Parser, gs: seq<Segment>, t: string)
    requires forall i :: 0 <= i < |gs| ==> WellFormed(gs[i])
    requires NoFence(t)
    ensures Extract(parse, Render(gs) + (Opener + t)) == Extract(parse, Render(gs))
  {
    UnclosedBlockIgnored(gs, t);
    BlocksOfRender(gs, "");
    assert Render(gs) + "" == Render(gs);
    assert Contents(gs) + Blocks("") == Contents(gs);
  }

  /** One well-formed hypothesis block yields one record, with id 1 and the block's claim. */
  lemma SingleBlockScenario(parse: Parser, content: string, fs: seq<Field>)
    requires Stripped(content) && NoFence(content)
    requires parse(content) == Some(JObject(fs))
    requires HasRequiredFields(fs)
    ensures Records(parse, FencedBlock(content)) == [Record(fs, 1)]
    ensures Extract(parse, FencedBlock(content)) == [Record(fs, 1).Dict()]
  {
    BlockRoundTrip(content, "");
    assert FencedBlock(content) + "" == FencedBlock(content);
    StripStripped(content);
    assert Decode(parse, [content]) == [Some(JObject(fs))];
  }

  /** Two identical blocks give two records, with ids 1 and 2: there is no de-duplication. */
  lemma DuplicateBlocksScenario(parse: Parser, content: string, fs: seq<Field>)
    requires Stripped(content) && NoFence(content)
    requires parse(content) == Some(JObject(fs))
    requires HasRequiredFields(fs)
    ensures Records(parse, FencedBlock(content) + FencedBlock(content)) == [Record(fs, 1), Record(fs, 2)]
  {
    TwoBlocks(content);
    StripStripped(content);
    var d := Decode(parse, [content, content]);
    assert d == [Some(JObject(fs)), Some(JObject(fs))];
    assert d[1..] == [Some(JObject(fs))];
    assert Collect(d[1..], 2) == [Record(fs, 2)];
  }

  lemma TwoBlocks(content: string)
    requires Stripped(content) && NoFence(content)
    ensures Blocks(FencedBlock(content) + FencedBlock(content)) == [content, content]
  {
    var block := FencedBlock(content);
    BlockRoundTrip(content, block);
    BlockRoundTrip(content, "");
    assert block + "" == block;
  }
}

=== FILE: fences.dfy ===
/**
 * The fence scanner behind the hypothesis extractor: the matches that
 * `re.findall(r'```json\s*(.*?)\s*```', buffer, re.DOTALL)` returns.
 *
 * At each position the pattern needs the opener "```json"; the greedy `\s*`
 * then takes all following whitespace, and the lazy group ends at the first
 * "```" after it, giving the trailing whitespace back to the second `\s*`.
 * A position where the opener has no closing fence after it does not match,
 * and the search moves on by one character; after a match it resumes just
 * past the closing fence.
 */
module Fences {
  import opened Wrappers
  import opened Text

  const Opener: string := "```json"

  /** A closing fence "```" starts at index `i` of `s`. */
  predicate IsFenceAt(s: string, i: int) {
    0 <= i && i + 3 <= |s| && s[i] == '`' && s[i + 1] == '`' && s[i + 2] == '`'
  }

  predicate NoFence(s: string) {
    forall i :: 0 <= i < |s| ==> !IsFenceAt(s, i)
  }

  predicate NoBacktick(s: string) {
    forall i :: 0 <= i < |s| ==> s[i] != '`'
  }

  predicate StartsWithOpener(s: string) {
    Opener <= s
  }

  /** The opener "```json" starts at index `i` of `s`. */
  predicate OpenerAt(s: string, i: int) {
    0 <= i && i + |Opener| <= |s| && s[i..i + |Opener|] == Opener
  }

  /** No "```json" anywhere in `s`; inline code and fences of other languages are allowed. */
  predicate NoOpener(s: string) {
    forall i :: 0 <= i < |s| ==> !OpenerAt(s, i)
  }

  /** Index of the first fence in `s`, searching from `i` on. */
  function FindFenceFrom(s: string, i: nat): (r: Option<nat>)
    requires forall j :: 0 <= j < i ==> !IsFenceAt(s, j)
    ensures r.Some? ==> IsFenceAt(s, r.value) && forall j :: 0 <= j < r.value ==> !IsFenceAt(s, j)
    ensures r.None? ==> NoFence(s)
    decreases |s| - i
  {
    if i + 3 > |s| then None
    else if IsFenceAt(s, i) then Some(i)
    else FindFenceFrom(s, i + 1)
  }

  /** Index of the first fence in `s`, if there is one. */
  function FindFence(s: string): (r: Option<nat>)
    ensures r.Some? ==> IsFenceAt(s, r.value) && forall j :: 0 <= j < r.value ==> !IsFenceAt(s, j)
    ensures r.None? ==> NoFence(s)
  {
    FindFenceFrom(s, 0)
  }

  /** A fence with none before it is the one `FindFence` reports. */
  lemma FirstFence(s: string, c: nat)
    requires IsFenceAt(s, c)
    requires forall j :: 0 <= j < c ==> !IsFenceAt(s, j)
    ensures FindFence(s) == Some(c)
  {
    var r := FindFence(s);
    assert r.Some?;
    assert !(r.value < c);
    assert !(c < r.value);
  }

  /** Appending text does not move a fence that is already there. */
  lemma FindFenceExtend(s: string, t: string)
    requires FindFence(s).Some?
    ensures FindFence(s + t) == FindFence(s)
  {
    var c := FindFence(s).value;
    assert IsFenceAt(s + t, c) by {
      assert (s + t)[c] == s[c] && (s + t)[c + 1] == s[c + 1] && (s + t)[c + 2] == s[c + 2];
    }
    forall j | 0 <= j < c ensures !IsFenceAt(s + t, j) {
      assert (s + t)[j] == s[j] && (s + t)[j + 1] == s[j + 1] && (s + t)[j + 2] == s[j + 2];
      assert !IsFenceAt(s, j);
    }
    FirstFence(s + t, c);
  }

  /** Leading whitespace holds no fence, so skipping it shifts the first fence by its length. */
  lemma FindFenceAfterSpace(s: string, w: nat)
    requires w <= |s| && SpaceBetween(s, 0, w)
    ensures FindFence(s[w..]).Some? ==> FindFence(s) == Some(w + FindFence(s[w..]).value)
    ensures FindFence(s[w..]).None? ==> FindFence(s).None?
  {
    var u := s[w..];
    forall j | 0 <= j ensures IsFenceAt(s, w + j) == IsFenceAt(u, j) {
      if j + 3 <= |u| {
        assert s[w + j] == u[j] && s[w + j + 1] == u[j + 1] && s[w + j + 2] == u[j + 2];
      }
    }
    forall j | 0 <= j < w ensures !IsFenceAt(s, j) {
      assert IsSpace(s[j]);
    }
    match FindFence(u)
    case Some(c) =>
      forall j | 0 <= j < w + c ensures !IsFenceAt(s, j) {
        if j >= w {
          assert !IsFenceAt(u, j - w);
        }
      }
      FirstFence(s, w + c);
    case None =>
      forall j ensures !IsFenceAt(s, j) {
        if j >= w {
          assert !IsFenceAt(u, j - w);
        }
      }
  }

  /** A prefix of text that has no fence before index `c`, and is at most `c` long, has no fence. */
  lemma NoFenceBefore(u: string, v: string, c: nat)
    requires u <= v && |u| <= c
    requires forall j :: 0 <= j < c ==> !IsFenceAt(v, j)
    ensures NoFence(u)
  {
    forall i ensures !IsFenceAt(u, i) {
      if 0 <= i && i + 3 <= |u| {
        assert u[i] == v[i] && u[i + 1] == v[i + 1] && u[i + 2] == v[i + 2];
        assert !IsFenceAt(v, i);
      }
    }
  }

  /**
   * The list `re.findall` returns: the trimmed content of every complete
   * "```json ... ```" block, in buffer order.
   */
  function Blocks(s: string): (r: seq<string>)
    ensures forall i :: 0 <= i < |r| ==> Stripped(r[i]) && NoFence(r[i])
    decreases |s|
  {
    if |s| == 0 then []
    else if StartsWithOpener(s) then
      var body := s[7..];
      var w := LeadingSpace(body);
      match FindFence(body[w..])
      case Some(c) =>
        var m := TrimEnd(body[w..w + c]);
        assert |m| > 0 ==> m[0] == body[w];
        NoFenceBefore(m, body[w..], c);
        [m] + Blocks(body[w + c + 3..])
      case None => Blocks(s[1..])
    else Blocks(s[1..])
  }

  /** One scanning step where no opener starts at the front: move on by one character. */
  lemma BlocksSkip(s: string)
    requires |s| > 0 && !StartsWithOpener(s)
    ensures Blocks(s) == Blocks(s[1..])
  {
  }

  /** One scanning step where the opener at the front has a closing fence `c` characters after its whitespace. */
  lemma BlocksMatch(s: string, w: nat, c: nat)
    requires StartsWithOpener(s)
    requires w == LeadingSpace(s[7..])
    requires FindFence(s[7..][w..]) == Some(c)
    ensures Blocks(s) == [TrimEnd(s[7..][w..w + c])] + Blocks(s[7..][w + c + 3..])
  {
    var body := s[7..];
    var r := Blocks(s);
    var tail := Blocks(body[w + c + 3..]);
    assert r == [TrimEnd(body[w..w + c])] + tail by {
      assert |s| > 0;
    }
  }

  /** One scanning step where the opener at the front has no closing fence: move on by one character. */
  lemma BlocksNoClose(s: string)
    requires StartsWithOpener(s)
    requires FindFence(s[7..][LeadingSpace(s[7..])..]).None?
    ensures Blocks(s) == Blocks(s[1..])
  {
  }

  /** Text without any fence holds no block. */
  lemma {:induction false} NoFenceNoBlocks(s: string)
    requires NoFence(s)
    ensures Blocks(s) == []
    decreases |s|
  {
    if |s| > 0 {
      assert !StartsWithOpener(s) by {
        assert !IsFenceAt(s, 0);
      }
      forall i ensures !IsFenceAt(s[1..], i) {
        assert !IsFenceAt(s, i + 1);
        if 0 <= i && i + 3 <= |s[1..]| {
          assert s[1..][i] == s[i + 1] && s[1..][i + 1] == s[i + 2] && s[1..][i + 2] == s[i + 3];
        }
      }
      NoFenceNoBlocks(s[1..]);
    }
  }

  /** Text shorter than the opener holds no block. */
  lemma {:induction false} ShortNoBlocks(s: string)
    requires |s| < |Opener|
    ensures Blocks(s) == []
    decreases |s|
  {
    if |s| > 0 {
      ShortNoBlocks(s[1..]);
    }
  }

  /**
   * An opener with no fence anywhere after it matches nothing, and neither
   * does any later position: the rest of the buffer holds no block.
   */
  lemma FailedOpenerNoBlocks(s: string)
    requires StartsWithOpener(s)
    requires FindFence(s[7..][LeadingSpace(s[7..])..]).None?
    ensures Blocks(s) == []
  {
    var body := s[7..];
    var w := LeadingSpace(body);
    var t := body[w..];
    assert NoFence(t);
    assert s[3] == 'j' && s[4] == 's' && s[5] == 'o' && s[6] == 'n' by {
      assert s[..7] == Opener;
    }
    var b := s[1..];
    forall i ensures !IsFenceAt(b, i) {
      if 0 <= i && i + 3 <= |b| {
        if i <= 5 {
          assert b[i] != '`' || b[i + 1] != '`' || b[i + 2] != '`';
        } else if i < 6 + w {
          assert b[i] == body[i - 6];
          assert IsSpace(body[i - 6]);
        } else {
          assert b[i] == t[i - 6 - w] && b[i + 1] == t[i - 5 - w] && b[i + 2] == t[i - 4 - w];
          assert !IsFenceAt(t, i - 6 - w);
        }
      }
    }
    NoFenceNoBlocks(b);
  }

  /**
   * At an opener, the first block is the text between the opener and the
   * first fence after it, with surrounding whitespace stripped, and scanning
   * resumes after that fence; with no fence after the opener there is no block.
   */
  lemma BlocksAtOpener(s: string)
    requires StartsWithOpener(s)
    ensures FindFence(s[7..]).Some? ==>
      var d := FindFence(s[7..]).value;
      Blocks(s) == [Strip(s[7..][..d])] + Blocks(s[7..][d + 3..])
    ensures FindFence(s[7..]).None? ==> Blocks(s) == []
  {
    var body := s[7..];
    var w := LeadingSpace(body);
    FindFenceAfterSpace(body, w);
    match FindFence(body[w..])
    case Some(c) =>
      var d := w + c;
      var region := body[..d];
      assert SpaceBetween(region, 0, w) by {
        forall j | 0 <= j < w ensures IsSpace(region[j]) {
          assert region[j] == body[j];
        }
      }
      assert w < |body|;
      assert w < d ==> region[w] == body[w];
      LeadingSpaceExact(region, w);
      assert region[w..] == body[w..w + c];
      assert body[w..][c + 3..] == body[d + 3..];
    case None =>
      FailedOpenerNoBlocks(s);
  }

  /** The block an opener yields is settled once its closing fence is in the buffer: later text only extends what follows. */
  lemma MatchExtend(a: string, b: string, w: nat, c: nat)
    requires StartsWithOpener(a)
    requires w == LeadingSpace(a[7..])
    requires FindFence(a[7..][w..]) == Some(c)
    ensures Blocks(a) == [TrimEnd(a[7..][w..w + c])] + Blocks(a[7..][w + c + 3..])
    ensures Blocks(a + b) == [TrimEnd(a[7..][w..w + c])] + Blocks(a[7..][w + c + 3..] + b)
  {
    var body := a[7..];
    assert (a + b)[..7] == a[..7];
    assert (a + b)[7..] == body + b;
    LeadingSpaceExtend(body, b);
    assert (body + b)[w..] == body[w..] + b;
    FindFenceExtend(body[w..], b);
    assert (body + b)[w..w + c] == body[w..w + c];
    assert (body + b)[w + c + 3..] == body[w + c + 3..] + b;
    BlocksMatch(a, w, c);
    BlocksMatch(a + b, w, c);
  }

  /** Where no opener starts, the buffer and its extension both move on by one character. */
  lemma SkipExtend(a: string, b: string)
    requires |a| >= |Opener| && !StartsWithOpener(a)
    ensures Blocks(a) == Blocks(a[1..])
    ensures Blocks(a + b) == Blocks(a[1..] + b)
  {
    assert (a + b)[..7] == a[..7];
    assert (a + b)[1..] == a[1..] + b;
    BlocksSkip(a);
    BlocksSkip(a + b);
  }

  lemma PrefixCons<T>(m: T, x: seq<T>, y: seq<T>)
    requires x <= y
    ensures [m] + x <= [m] + y
  {
    assert ([m] + y)[..|[m] + x|] == [m] + y[..|x|];
  }

  /** Appending text never retracts or changes a block already found: the old list is a prefix of the new. */
  lemma {:induction false} BlocksExtend(a: string, b: string)
    ensures Blocks(a) <= Blocks(a + b)
    decreases |a|
  {
    if |a| < |Opener| {
      ShortNoBlocks(a);
    } else if StartsWithOpener(a) {
      var w := LeadingSpace(a[7..]);
      var found := FindFence(a[7..][w..]);
      if found.Some? {
        var c := found.value;
        var rest := a[7..][w + c + 3..];
        MatchExtend(a, b, w, c);
        BlocksExtend(rest, b);
        PrefixCons(TrimEnd(a[7..][w..w + c]), Blocks(rest), Blocks(rest + b));
      } else {
        FailedOpenerNoBlocks(a);
      }
    } else {
      SkipExtend(a, b);
      BlocksExtend(a[1..], b);
    }
  }

  /** Prose without backticks contributes no block and does not disturb what follows it. */
  lemma {:induction false} ProseSkipped(p: string, z: string)
    requires NoBacktick(p)
    ensures Blocks(p + z) == Blocks(z)
    decreases |p|
  {
    if |p| > 0 {
      assert (p + z)[0] == p[0];
      assert !StartsWithOpener(p + z) by {
        assert Opener[0] == '`';
      }
      assert (p + z)[1..] == p[1..] + z;
      BlocksSkip(p + z);
      ProseSkipped(p[1..], z);
    } else {
      assert p + z == z;
    }
  }

  /**
   * Prose holding no "```json" contributes no block when a block follows
   * it: no position inside the prose starts an opener, not even one that
   * runs on into the block, since the block's own opener begins with a
   * backtick where "json" would have to be.
   */
  lemma {:induction false} ProseBeforeOpenerSkipped(p: string, z: string)
    requires NoOpener(p)
    requires StartsWithOpener(z)
    ensures Blocks(p + z) == Blocks(z)
    decreases |p|
  {
    if |p| > 0 {
      NotOpenerAtFront(p, z);
      assert (p + z)[1..] == p[1..] + z;
      forall i ensures !OpenerAt(p[1..], i) {
        if OpenerAt(p[1..], i) {
          assert p[1..][i..i + |Opener|] == p[i + 1..i + 1 + |Opener|];
          assert OpenerAt(p, i + 1);
        }
      }
      BlocksSkip(p + z);
      ProseBeforeOpenerSkipped(p[1..], z);
    } else {
      assert p + z == z;
    }
  }

  /** Where prose without an opener is followed by a block, the front of the two is not an opener. */
  lemma NotOpenerAtFront(p: string, z: string)
    requires |p| > 0 && NoOpener(p)
    requires StartsWithOpener(z)
    ensures !StartsWithOpener(p + z)
  {
    var s := p + z;
    if |p| >= |Opener| {
      assert !OpenerAt(p, 0);
      assert s[..|Opener|] == p[..|Opener|];
    } else {
      // The first backtick of z lands where the opener has a letter.
      var k := if |p| <= 3 then 3 else |p|;
      assert z[..|Opener|] == Opener;
      assert s[k] == z[k - |p|];
      assert z[k - |p|] == '`';
      assert Opener[k] != '`';
    }
  }

  /** One block written the way the agent is asked to write it: a newline after the opener and before the fence. */
  function FencedBlock(content: string): string {
    Opener + "\n" + content + "\n```"
  }

  /** In fence-free content followed by a newline and a fence, the first fence is that one. */
  lemma ClosingFenceAfter(x: string, r: string)
    requires NoFence(x)
    ensures FindFence(x + "\n```" + r) == Some(|x| + 1)
  {
    var u := x + "\n```" + r;
    var c := |x| + 1;
    assert u[|x|] == '\n';
    assert u[c] == '`' && u[c + 1] == '`' && u[c + 2] == '`';
    forall j | 0 <= j < c ensures !IsFenceAt(u, j) {
      if j + 3 <= |x| {
        assert u[j] == x[j] && u[j + 1] == x[j + 1] && u[j + 2] == x[j + 2];
        assert !IsFenceAt(x, j);
      }
    }
    FirstFence(u, c);
  }

  lemma NonEmptyBlockRoundTrip(x: string, r: string)
    requires |x| > 0 && Stripped(x) && NoFence(x)
    ensures Blocks(FencedBlock(x) + r) == [x] + Blocks(r)
  {
    var s := FencedBlock(x) + r;
    assert s[..7] == Opener;
    var body := s[7..];
    assert body == "\n" + x + "\n```" + r;
    assert body[0] == '\n' && body[1] == x[0];
    LeadingSpaceExact(body, 1);
    var u := body[1..];
    assert u == x + "\n```" + r;
    var c := |x| + 1;
    ClosingFenceAfter(x, r);
    assert body[1..1 + c] == x + "\n";
    TrimEndExact(x, "\n");
    assert body[1 + c + 3..] == r;
    BlocksMatch(s, 1, c);
  }

  lemma EmptyBlockRoundTrip(r: string)
    ensures Blocks(FencedBlock("") + r) == [""] + Blocks(r)
  {
    var s := FencedBlock("") + r;
    assert s[..7] == Opener;
    var body := s[7..];
    assert body == "\n\n```" + r;
    LeadingSpaceExact(body, 2);
    var u := body[2..];
    assert u == "```" + r;
    FirstFence(u, 0);
    assert u[..0] == "";
    assert TrimEnd("") == "";
    assert u[3..] == r;
    BlocksMatch(s, 2, 0);
  }

  /** A block whose content is stripped and fence-free is read back as exactly that content. */
  lemma BlockRoundTrip(x: string, r: string)
    requires Stripped(x) && NoFence(x)
    ensures Blocks(FencedBlock(x) + r) == [x] + Blocks(r)
  {
    if |x| > 0 {
      NonEmptyBlockRoundTrip(x, r);
    } else {
      assert x == "";
      EmptyBlockRoundTrip(r);
    }
  }

  /** A stretch of model output: some prose, then one fenced JSON block. */
  datatype Segment = Segment(prose: string, content: string)

  /** Prose that opens no JSON block, then a block whose content is stripped and fence-free. */
  predicate WellFormed(g: Segment) {
    NoOpener(g.prose) && Stripped(g.content) && NoFence(g.content)
  }

  function Render(gs: seq<Segment>): string {
    if |gs| == 0 then "" else gs[0].prose + FencedBlock(gs[0].content) + Render(gs[1..])
  }

  function Contents(gs: seq<Segment>): (r: seq<string>)
    ensures |r| == |gs|
    ensures forall i :: 0 <= i < |gs| ==> r[i] == gs[i].content
  {
    if |gs| == 0 then [] else [gs[0].content] + Contents(gs[1..])
  }

  lemma RenderCons(gs: seq<Segment>, tail: string)
    requires |gs| > 0
    ensures Render(gs) + tail == gs[0].prose + (FencedBlock(gs[0].content) + (Render(gs[1..]) + tail))
  {
    assert Render(gs) == gs[0].prose + FencedBlock(gs[0].content) + Render(gs[1..]);
    Regroup(gs[0].prose, FencedBlock(gs[0].content), Render(gs[1..]), tail);
  }

  lemma Regroup(p: string, f: string, r: string, t: string)
    ensures p + f + r + t == p + (f + (r + t))
  {
  }

  /**
   * Scanning rendered output recovers every block's content, in order and
   * without de-duplication, and then carries on with whatever follows.
   */
  lemma {:induction false} BlocksOfRender(gs: seq<Segment>, tail: string)
    requires forall i :: 0 <= i < |gs| ==> WellFormed(gs[i])
    ensures Blocks(Render(gs) + tail) == Contents(gs) + Blocks(tail)
  {
    if |gs| > 0 {
      var g := gs[0];
      var rest := Render(gs[1..]) + tail;
      calc {
        Blocks(Render(gs) + tail);
        { RenderCons(gs, tail); }
        Blocks(g.prose + (FencedBlock(g.content) + rest));
        { assert (FencedBlock(g.content) + rest)[..|Opener|] == Opener;
          ProseBeforeOpenerSkipped(g.prose, FencedBlock(g.content) + rest); }
        Blocks(FencedBlock(g.content) + rest);
        { BlockRoundTrip(g.content, rest); }
        [g.content] + Blocks(rest);
        { BlocksOfRender(gs[1..], tail); }
        [g.content] + (Contents(gs[1..]) + Blocks(tail));
        { assert Contents(gs) == [g.content] + Contents(gs[1..]); }
        Contents(gs) + Blocks(tail);
      }
    } else {
      assert Render(gs) + tail == tail;
    }
  }

  /** An opened but unclosed block at the end of the buffer yields nothing: the result is as if it were absent. */
  lemma UnclosedBlockIgnored(gs: seq<Segment>, t: string)
    requires forall i :: 0 <= i < |gs| ==> WellFormed(gs[i])
    requires NoFence(t)
    ensures Blocks(Render(gs) + (Opener + t)) == Contents(gs)
  {
    var s := Opener + t;
    assert s[..7] == Opener;
    assert s[7..] == t;
    var w := LeadingSpace(t);
    assert NoFence(t[w..]) by {
      forall i ensures !IsFenceAt(t[w..], i) {
        assert !IsFenceAt(t, i + w);
        if 0 <= i && i + 3 <= |t[w..]| {
          assert t[w..][i] == t[i + w] && t[w..][i + 1] == t[i + w + 1] && t[w..][i + 2] == t[i + w + 2];
        }
      }
    }
    FailedOpenerNoBlocks(s);
    BlocksOfRender(gs, s);
    assert Contents(gs) + [] == Contents(gs);
  }
}

=== FILE: json.dfy ===
/** JSON values as Python's `json.loads` returns them, and the dict operations the pipeline uses. */
module Json {
  import opened Wrappers

  /** A decoded JSON value. An object keeps its members in insertion order, as a Python dict does. */
  datatype Json =
    | JNull
    | JBool(b: bool)
    | JInt(i: int)
    | JFloat(x: real)
    | JString(s: string)
    | JArray(items: seq<Json>)
    | JObject(fields: seq<Field>)

  datatype Field = Field(key: string, value: Json)

  /** Python truthiness: `None`, `False`, zero and empty containers are false. */
  predicate Truthy(v: Json) {
    match v
    case JNull => false
    case JBool(b) => b
    case JInt(i) => i != 0
    case JFloat(x) => x != 0.0
    case JString(s) => |s| > 0
    case JArray(items) => |items| > 0
    case JObject(fields) => |fields| > 0
  }

  /** `d.get(k)`: the value of the first member named `k`. */
  function Lookup(fs: seq<Field>, k: string): Option<Json> {
    if |fs| == 0 then None
    else if fs[0].key == k then Some(fs[0].value)
    else Lookup(fs[1..], k)
  }

  /** `k in d` */
  predicate HasKey(fs: seq<Field>, k: string) {
    Lookup(fs, k).Some?
  }

  /** Sets every member named `k` to `v`, keeping its position. */
  function Replace(fs: seq<Field>, k: string, v: Json): (r: seq<Field>)
    ensures |r| == |fs|
    ensures forall i :: 0 <= i < |fs| ==> r[i].key == fs[i].key
    ensures forall i :: 0 <= i < |fs| ==> r[i].value == if fs[i].key == k then v else fs[i].value
  {
    if |fs| == 0 then []
    else [Field(fs[0].key, if fs[0].key == k then v else fs[0].value)] + Replace(fs[1..], k, v)
  }

  /** `d[k] = v`: an existing key keeps its place and takes the new value; a new key goes last. */
  function Put(fs: seq<Field>, k: string, v: Json): (r: seq<Field>)
    ensures Lookup(r, k) == Some(v)
    ensures forall k' :: k' != k ==> Lookup(r, k') == Lookup(fs, k')
    ensures |r| == if HasKey(fs, k) then |fs| else |fs| + 1
    ensures forall i :: 0 <= i < |fs| ==> r[i].key == fs[i].key
  {
    if HasKey(fs, k) then
      var r := Replace(fs, k, v);
      LookupReplace(fs, k, v);
      forall k' | k' != k ensures Lookup(r, k') == Lookup(fs, k') {
        LookupReplaceOther(fs, k, v, k');
      }
      r
    else
      var r := fs + [Field(k, v)];
      LookupAppend(fs, k, v);
      r
  }

  lemma {:induction false} LookupReplace(fs: seq<Field>, k: string, v: Json)
    requires HasKey(fs, k)
    ensures Lookup(Replace(fs, k, v), k) == Some(v)
  {
    var r := Replace(fs, k, v);
    assert r[1..] == Replace(fs[1..], k, v);
    if fs[0].key != k {
      LookupReplace(fs[1..], k, v);
    }
  }

  lemma {:induction false} LookupReplaceOther(fs: seq<Field>, k: string, v: Json, k': string)
    requires k' != k
    ensures Lookup(Replace(fs, k, v), k') == Lookup(fs, k')
  {
    if |fs| > 0 {
      var r := Replace(fs, k, v);
      assert r[1..] == Replace(fs[1..], k, v);
      LookupReplaceOther(fs[1..], k, v, k');
    }
  }

  lemma {:induction false} LookupAppend(fs: seq<Field>, k: string, v: Json)
    requires !HasKey(fs, k)
    ensures Lookup(fs + [Field(k, v)], k) == Some(v)
    ensures forall k' :: k' != k ==> Lookup(fs + [Field(k, v)], k') == Lookup(fs, k')
  {
    if |fs| > 0 {
      assert (fs + [Field(k, v)])[1..] == fs[1..] + [Field(k, v)];
      LookupAppend(fs[1..], k, v);
    }
  }
}

=== FILE: messages.dfy ===
/** The strings `run_stream_with_extraction` builds for its own events. */
module Messages {
  import opened Wrappers
  import opened Text
  import opened Json
  import opened ToolEvents

  /** Python truthiness of `expected_count`: None and 0 are false. */
  predicate ExpectedTruthy(e: Option<int>) {
    e.Some? && e.value != 0
  }

  /** `progress`: "k/e" when the expected count is truthy, else "k". */
  function Progress(k: nat, e: Option<int>): (r: string)
    ensures NatToString(k) <= r
    ensures ExpectedTruthy(e) <==> |r| > |NatToString(k)|
    ensures |r| > |NatToString(k)| ==> r[|NatToString(k)|] == '/' && r[|NatToString(k)| + 1..] == IntToString(e.value)
  {
    if ExpectedTruthy(e) then
      var r := NatToString(k) + "/" + IntToString(e.value);
      assert r[..|NatToString(k)|] == NatToString(k);
      assert r[|NatToString(k)| + 1..] == IntToString(e.value);
      r
    else NatToString(k)
  }

  /**
   * The count can be read back from the progress string: the digits before
   * any "/" spell `k`, and an expected count that is 0 or missing leaves no trace.
   */
  lemma ProgressReadBack(k: nat, e: Option<int>)
    ensures var r := Progress(k, e);
      exists n :: 1 <= n <= |r| && r[..n] == NatToString(k) && AllDigits(r[..n]) && DecimalValue(r[..n]) == k
        && (n < |r| ==> r[n] == '/')
    ensures !ExpectedTruthy(e) ==> Progress(k, e) == Progress(k, None)
  {
    var r := Progress(k, e);
    var n := |NatToString(k)|;
    assert r[..n] == NatToString(k);
  }

  lemma ProgressExamples()
    ensures Progress(2, Some(3)) == "2/3"
    ensures Progress(2, None) == "2"
    ensures Progress(2, Some(0)) == "2"
    ensures Progress(12, Some(-1)) == "12/-1"
  {
    assert NatToString(2) == "2";
    assert NatToString(3) == "3";
    assert NatToString(1) == "1";
    assert NatToString(12) == "12";
    assert IntToString(-1) == "-" + NatToString(1);
  }

  const SummaryLimit: nat := 80

  /**
   * `hypothesis.get('claim', '')[:80]` as an f-string shows it: a string is
   * cut to 80 characters, a list to 80 items and then formatted; any other
   * value (a dict, a number, a bool, None), or a hypothesis that is not a
   * dict at all, raises, which is None here.
   */
  function ClaimExcerpt(show: Show, h: Json): (r: Option<string>)
    ensures r.Some? ==> h.JObject?
    ensures h.JObject? && Lookup(h.fields, "claim").None? ==> r == Some("")
    ensures h.JObject? && Lookup(h.fields, "claim") == Some(JNull) ==> r.None?
    ensures h.JObject? && Lookup(h.fields, "claim").Some? ==>
      var c := Lookup(h.fields, "claim").value;
      && (c.JString? ==> r.Some? && r.value <= c.s && |r.value| == if |c.s| < SummaryLimit then |c.s| else SummaryLimit)
      && (c.JArray? ==> r == Some(show(JArray(Take(c.items, SummaryLimit)))))
      && (!c.JString? && !c.JArray? ==> r.None?)
  {
    if !h.JObject? then None
    else
      match Lookup(h.fields, "claim")
      case None => Some("")
      case Some(JString(s)) => Some(Take(s, SummaryLimit))
      case Some(JArray(xs)) => Some(show(JArray(Take(xs, SummaryLimit))))
      case Some(_) => None
  }

  /** A string claim of any length contributes at most its first 80 characters, unchanged. */
  lemma StringClaimExcerpt(show: Show, fs: seq<Field>, claim: string)
    requires Lookup(fs, "claim") == Some(JString(claim))
    ensures ClaimExcerpt(show, JObject(fs)).Some?
    ensures ClaimExcerpt(show, JObject(fs)).value <= claim
    ensures |ClaimExcerpt(show, JObject(fs)).value| == if |claim| < SummaryLimit then |claim| else SummaryLimit
  {
  }

  const SummaryPrefix: string := "Hypothesis "

  /** `summary`: "Hypothesis k: " + the claim excerpt + "...", or None where building it raises. */
  function Summary(show: Show, k: nat, h: Json): (r: Option<string>)
    ensures r.Some? <==> ClaimExcerpt(show, h).Some?
    ensures r.Some? ==> r.value == SummaryPrefix + NatToString(k) + ": " + ClaimExcerpt(show, h).value + "..."
  {
    match ClaimExcerpt(show, h)
    case Some(c) => Some(SummaryPrefix + NatToString(k) + ": " + c + "...")
    case None => None
  }

  /** The summary of a string claim begins with the id and the claim's first 80 characters, and ends in "...". */
  lemma SummaryOfStringClaim(show: Show, k: nat, fs: seq<Field>, claim: string)
    requires Lookup(fs, "claim") == Some(JString(claim))
    ensures Summary(show, k, JObject(fs)).Some?
    ensures var sm := Summary(show, k, JObject(fs)).value;
      var head := SummaryPrefix + NatToString(k) + ": ";
      head <= sm && sm[|head|..|sm| - 3] == Take(claim, SummaryLimit) && sm[|sm| - 3..] == "..."
  {
    var head := SummaryPrefix + NatToString(k) + ": ";
    var c := Take(claim, SummaryLimit);
    var sm := head + c + "...";
    assert sm[..|head|] == head;
    assert sm[|head|..|sm| - 3] == c;
  }

  /** The singular or plural noun after the count. */
  function Noun(k: nat): string {
    if k == 1 then "hypothesis" else "hypotheses"
  }

  /** " (expected e)" when the expected count is truthy: its digits sit between "(expected " and ")". */
  function ExpectedNote(e: Option<int>): (r: string)
    ensures ExpectedTruthy(e) <==> r != ""
    ensures ExpectedTruthy(e) ==>
      && |r| == 12 + |IntToString(e.value)|
      && r[..11] == " (expected "
      && r[11..|r| - 1] == IntToString(e.value)
      && r[|r| - 1] == ')'
  {
    if ExpectedTruthy(e) then
      var d := IntToString(e.value);
      var r := " (expected " + d + ")";
      assert r[..11] == " (expected ";
      assert r[11..|r| - 1] == d;
      r
    else ""
  }

  const CompletePrefix: string := "Successfully extracted "
  const ToolCallsLabel: string := " | Tool calls: "

  /** Everything before the noun: "Successfully extracted k ". */
  function CountHead(k: nat): string {
    CompletePrefix + NatToString(k) + " "
  }

  /** Everything after the noun: the optional expected count, then the tool-call count. */
  function CountTail(e: Option<int>, n: nat): string {
    ExpectedNote(e) + ToolCallsLabel + NatToString(n)
  }

  /** The `extraction_complete` message, with the plural spelled "hypotheses". */
  function CompleteMessage(k: nat, e: Option<int>, n: nat): (r: string)
    ensures CompletePrefix <= r
  {
    assert (CountHead(k) + Noun(k) + CountTail(e, n))[..|CompletePrefix|] == CompletePrefix;
    CountHead(k) + Noun(k) + CountTail(e, n)
  }

  /** The message as the code builds it: "hypothesis" with "es" appended whenever the count is not 1. */
  function CompleteMessageAsWritten(k: nat, e: Option<int>, n: nat): (r: string)
    ensures CompletePrefix <= r
  {
    var r := CountHead(k) + "hypothesis" + (if k != 1 then "es" else "") + CountTail(e, n);
    assert r[..|CompletePrefix|] == CompletePrefix;
    r
  }

  /** Slicing a three-part string gives back its parts. */
  lemma ThreeParts(a: string, b: string, c: string)
    ensures (a + b + c)[..|a|] == a
    ensures (a + b + c)[|a|..|a| + |b|] == b
    ensures (a + b + c)[|a| + |b|..] == c
  {
    var m := a + b + c;
    assert m[..|a|] == a;
    assert m[|a|..|a| + |b|] == b;
    assert m[|a| + |b|..] == c;
  }

  lemma TwoParts(a: string, b: string)
    ensures (a + b)[..|a|] == a
    ensures (a + b)[|a|..] == b
  {
  }

  lemma SliceOfSlice(s: string, a: nat, b: nat)
    requires a + b <= |s|
    ensures s[a..][b..] == s[a + b..]
  {
  }

  /**
   * The message reads, in order: the count, the noun ("hypothesis" exactly
   * when the count is 1, else "hypotheses"), the expected count only when
   * it is truthy, and the number of tool calls at the very end.
   */
  lemma CompleteMessageShape(k: nat, e: Option<int>, n: nat)
    ensures var m := CompleteMessage(k, e, n);
      var p := |CountHead(k)|;
      && |m| >= p + 20
      && m[..p] == CompletePrefix + NatToString(k) + " "
      && (k == 1 <==> m[p..p + 10] == "hypothesis")
      && (k != 1 <==> m[p..p + 10] == "hypotheses")
      && (ExpectedTruthy(e) <==> m[p + 10..p + 20] == " (expected")
      && m[p + 10..] == ExpectedNote(e) + ToolCallsLabel + NatToString(n)
      && m[|m| - |ToolCallsLabel + NatToString(n)|..] == ToolCallsLabel + NatToString(n)
  {
    MessageNoun(k, e, n);
    MessageExpected(k, e, n);
    MessageEndsWithCalls(k, e, n);
  }

  lemma MessageNoun(k: nat, e: Option<int>, n: nat)
    ensures var m := CompleteMessage(k, e, n);
      var p := |CountHead(k)|;
      && |m| >= p + 20
      && m[..p] == CompletePrefix + NatToString(k) + " "
      && (k == 1 <==> m[p..p + 10] == "hypothesis")
      && (k != 1 <==> m[p..p + 10] == "hypotheses")
  {
    ThreeParts(CountHead(k), Noun(k), CountTail(e, n));
    NounShape(k);
    TailShape(e, n);
  }

  lemma MessageExpected(k: nat, e: Option<int>, n: nat)
    ensures var m := CompleteMessage(k, e, n);
      var p := |CountHead(k)|;
      && |m| >= p + 20
      && (ExpectedTruthy(e) <==> m[p + 10..p + 20] == " (expected")
      && m[p + 10..] == ExpectedNote(e) + ToolCallsLabel + NatToString(n)
  {
    MessageAfterNoun(k, e, n);
    FlagIn(CompleteMessage(k, e, n), |CountHead(k)| + 10, e, n);
  }

  /** After the count and the ten-letter noun comes the tail. */
  lemma MessageAfterNoun(k: nat, e: Option<int>, n: nat)
    ensures |CompleteMessage(k, e, n)| >= |CountHead(k)| + 10
    ensures CompleteMessage(k, e, n)[|CountHead(k)| + 10..] == ExpectedNote(e) + ToolCallsLabel + NatToString(n)
  {
    ThreeParts(CountHead(k), Noun(k), CountTail(e, n));
    NounShape(k);
  }

  /** Wherever the tail starts in a string, the ten characters there say whether a note follows. */
  lemma FlagIn(m: string, q: nat, e: Option<int>, n: nat)
    requires q <= |m| && m[q..] == CountTail(e, n)
    ensures q + 10 <= |m| && (ExpectedTruthy(e) <==> m[q..q + 10] == " (expected")
  {
    TailShape(e, n);
    SliceFront(m, q, CountTail(e, n), 10);
  }

  lemma SliceFront(m: string, q: nat, t: string, j: nat)
    requires q <= |m| && m[q..] == t && j <= |t|
    ensures q + j <= |m| && m[q..q + j] == t[..j]
  {
    assert m[q..q + j] == m[q..][..j];
  }

  lemma MessageEndsWithCalls(k: nat, e: Option<int>, n: nat)
    ensures var m := CompleteMessage(k, e, n);
      m[|m| - |ToolCallsLabel + NatToString(n)|..] == ToolCallsLabel + NatToString(n)
  {
    var head, noun, note := CountHead(k), Noun(k), ExpectedNote(e);
    var suffix := ToolCallsLabel + NatToString(n);
    var pre := head + noun + note;
    assert CountTail(e, n) == note + suffix;
    assert CompleteMessage(k, e, n) == pre + suffix;
    TwoParts(pre, suffix);
  }

  lemma NounShape(k: nat)
    ensures |Noun(k)| == 10
    ensures k == 1 <==> Noun(k) == "hypothesis"
    ensures k != 1 <==> Noun(k) == "hypotheses"
  {
    assert "hypothesis"[8] != "hypotheses"[8];
  }

  lemma TailShape(e: Option<int>, n: nat)
    ensures |CountTail(e, n)| >= 10
    ensures ExpectedTruthy(e) <==> CountTail(e, n)[..10] == " (expected"
  {
    var suffix := ToolCallsLabel + NatToString(n);
    if ExpectedTruthy(e) {
      var note := ExpectedNote(e);
      assert CountTail(e, n) == note + suffix;
      assert note[..11] == " (expected ";
      forall j | 0 <= j < 10 ensures CountTail(e, n)[j] == " (expected"[j] {
        assert note[j] == note[..11][j];
      }
    } else {
      assert CountTail(e, n) == suffix;
      assert suffix[1] == '|';
      assert suffix[..10][1] != " (expected"[1];
    }
  }

  /**
   * Finding: for every count other than 1 the code's message has
   * "hypothesises" where "hypotheses" is meant.
   */
  lemma AsWrittenPluralMisspelled(k: nat, e: Option<int>, n: nat)
    requires k != 1
    ensures var m := CompleteMessageAsWritten(k, e, n);
      var p := |CountHead(k)|;
      |m| >= p + 12 && m[p..p + 12] == "hypothesises"
  {
    var head, tail := CountHead(k), CountTail(e, n);
    assert "hypothesis" + "es" == "hypothesises";
    assert CompleteMessageAsWritten(k, e, n) == head + "hypothesises" + tail;
    ThreeParts(head, "hypothesises", tail);
  }

  /** So for every count other than 1 the code's message is not the intended one. */
  lemma AsWrittenPluralDiffers(k: nat, e: Option<int>, n: nat)
    requires k != 1
    ensures CompleteMessageAsWritten(k, e, n) != CompleteMessage(k, e, n)
  {
    var m, good := CompleteMessageAsWritten(k, e, n), CompleteMessage(k, e, n);
    var p := |CountHead(k)|;
    AsWrittenPluralMisspelled(k, e, n);
    MessageNoun(k, e, n);
    assert m[p..p + 12][8] == 'i';
    assert good[p..p + 10][8] == 'e';
    assert m[p + 8] != good[p + 8];
  }

  /** The code's message is two characters longer than the intended one for every count other than 1. */
  lemma AsWrittenLonger(k: nat, e: Option<int>, n: nat)
    ensures |CompleteMessageAsWritten(k, e, n)| == |CompleteMessage(k, e, n)| + if k != 1 then 2 else 0
  {
    NounShape(k);
  }

  /** For a count of 1 the code's message is already right. */
  lemma AsWrittenSingularAgrees(e: Option<int>, n: nat)
    ensures CompleteMessageAsWritten(1, e, n) == CompleteMessage(1, e, n)
  {
    var head, tail := CountHead(1), CountTail(e, n);
    assert head + "hypothesis" + "" == head + "hypothesis";
  }
}

=== FILE: orchestrator.dfy ===
/**
 * `run_stream_with_extraction`: a fold over the events of `run_stream` that
 * forwards every event, re-scans the growing text for hypotheses after each
 * text delta, pairs tool calls with tool outputs first-in first-out, and
 * ends with one summary event.
 */
module Orchestrator {
  import opened Wrappers
  import opened Text
  import opened Json
  import opened ToolEvents
  import opened Messages

  /** `duration_ms` from two ISO timestamps; None where parsing them raises. */
  type Duration = (string, string) -> Option<int>

  /** A completed tool interaction: a call and the output paired with it. */
  datatype Interaction = Interaction(
    toolName: string,
    timestampStart: string,
    timestampEnd: string,
    inputArgs: Json,
    output: Json,
    outputLength: nat,
    durationMs: Option<int>)

  /** The events `run_stream_with_extraction` yields. */
  datatype OutEvent =
    | Forward(event: StreamEvent)
    | HypothesisFound(data: Json, id: nat, progress: string, summary: string)
    | ExtractionComplete(totalHypotheses: nat, expected: Option<int>, toolInteractions: seq<Interaction>, message: string)

  /** The tool bookkeeping: calls waiting for an output, oldest first, and the completed interactions. */
  datatype Tools = Tools(pending: seq<ToolCall>, completed: seq<Interaction>)

  /** What the fold carries from one event to the next. */
  datatype State = State(buffer: string, extracted: nat, tools: Tools)

  /**
   * What stays fixed for a run: the extractor applied to the buffer, the
   * expected count (`number_of_hypothesis` of the context, None without one),
   * `str` for non-string values, and the duration computation.
   */
  datatype Config = Config(extract: string -> seq<Json>, expected: Option<int>, show: Show, duration: Duration)

  const Init: State := State("", 0, Tools([], []))

  function Max(a: nat, b: nat): nat {
    if a < b then b else a
  }

  /** The interaction built from a call and its output. */
  function Pair(duration: Duration, c: ToolCall, o: ToolOutput): (r: Interaction)
    ensures r.toolName == c.toolName && r.timestampStart == c.timestamp && r.inputArgs == c.inputArgs
    ensures r.timestampEnd == o.timestamp && r.output == o.output && r.outputLength == o.outputLength
    ensures CallOf(r) == c && OutputOf(r) == o
    ensures r.durationMs == duration(c.timestamp, o.timestamp)
  {
    Interaction(c.toolName, c.timestamp, o.timestamp, c.inputArgs, o.output, o.outputLength, duration(c.timestamp, o.timestamp))
  }

  /** The call an interaction was made from. */
  function CallOf(i: Interaction): ToolCall {
    ToolCall(i.toolName, i.timestampStart, i.inputArgs)
  }

  /** The output an interaction was completed by. */
  function OutputOf(i: Interaction): ToolOutput {
    ToolOutput(i.timestampEnd, i.output, i.outputLength)
  }

  function CallsOf(xs: seq<Interaction>): (r: seq<ToolCall>)
    ensures |r| == |xs|
  {
    seq(|xs|, k requires 0 <= k < |xs| => CallOf(xs[k]))
  }

  /**
   * The tool bookkeeping for one event: a call joins the back of the queue;
   * an output is paired with the call at the front, or dropped when the
   * queue is empty; anything else changes nothing.
   */
  function Correlate(duration: Duration, t: Tools, ev: StreamEvent): (r: Tools)
    ensures ev.ToolCallEvent? ==> r.pending == t.pending + [ev.call] && r.completed == t.completed
    ensures ev.ToolOutputEvent? && |t.pending| > 0 ==>
      r.pending == t.pending[1..] && r.completed == t.completed + [Pair(duration, t.pending[0], ev.out)]
    ensures ev.ToolOutputEvent? && |t.pending| == 0 ==> r == t
    ensures !ev.ToolCallEvent? && !ev.ToolOutputEvent? ==> r == t
  {
    match ev
    case ToolCallEvent(_, c) => t.(pending := t.pending + [c])
    case ToolOutputEvent(_, o) =>
      if |t.pending| > 0 then Tools(t.pending[1..], t.completed + [Pair(duration, t.pending[0], o)]) else t
    case _ => t
  }

  /** The tool bookkeeping alone, over a whole stream. */
  function CorrelateAll(duration: Duration, t: Tools, evs: seq<StreamEvent>): Tools
    decreases |evs|
  {
    if |evs| == 0 then t else CorrelateAll(duration, Correlate(duration, t, evs[0]), evs[1..])
  }

  /** No call is lost or duplicated by a step: the paired calls and the queue together keep arrival order. */
  lemma CorrelateKeepsCalls(duration: Duration, t: Tools, ev: StreamEvent)
    ensures CallsOf(Correlate(duration, t, ev).completed) + Correlate(duration, t, ev).pending ==
      CallsOf(t.completed) + t.pending + (if ev.ToolCallEvent? then [ev.call] else [])
  {
    var r := Correlate(duration, t, ev);
    if ev.ToolOutputEvent? && |t.pending| > 0 {
      assert CallsOf(r.completed) == CallsOf(t.completed) + [t.pending[0]];
      assert t.pending == [t.pending[0]] + t.pending[1..];
    }
  }

  datatype Announced = Announced(events: seq<OutEvent>, raised: bool)

  /** The `hypothesis_found` event for `h` with id `k`: the dict, its progress and its summary. */
  predicate Announces(cfg: Config, ev: OutEvent, h: Json, k: nat) {
    && ev.HypothesisFound?
    && ev.data == h
    && ev.id == k
    && ev.progress == Progress(k, cfg.expected)
    && Summary(cfg.show, k, h) == Some(ev.summary)
  }

  /**
   * The loop over the new hypotheses `hs[k..]`: one `hypothesis_found` each,
   * stopping at the first whose summary raises.
   */
  function Announce(cfg: Config, hs: seq<Json>, k: nat): (r: Announced)
    requires k <= |hs|
    decreases |hs| - k
    ensures k + |r.events| <= |hs|
    ensures !r.raised ==> k + |r.events| == |hs|
    ensures r.raised ==> k + |r.events| < |hs|
    ensures forall i :: 0 <= i < |r.events| ==> r.events[i].HypothesisFound?
  {
    if k == |hs| then Announced([], false)
    else
      match Summary(cfg.show, k + 1, hs[k])
      case None => Announced([], true)
      case Some(sm) =>
        var rest := Announce(cfg, hs, k + 1);
        Announced([HypothesisFound(hs[k], k + 1, Progress(k + 1, cfg.expected), sm)] + rest.events, rest.raised)
  }

  /**
   * The i-th announcement is for `hs[k + i]` with id k + i + 1, so ids run
   * on consecutively from the count already reported; a raise happens
   * exactly at the first hypothesis whose summary cannot be built.
   */
  lemma {:induction false} AnnounceReports(cfg: Config, hs: seq<Json>, k: nat, i: nat)
    requires k <= |hs|
    requires i < |Announce(cfg, hs, k).events|
    decreases i
    ensures Announces(cfg, Announce(cfg, hs, k).events[i], hs[k + i], k + i + 1)
  {
    AnnounceCons(cfg, hs, k);
    if i > 0 {
      AnnounceReports(cfg, hs, k + 1, i - 1);
    }
  }

  lemma AnnounceCons(cfg: Config, hs: seq<Json>, k: nat)
    requires k < |hs| && Summary(cfg.show, k + 1, hs[k]).Some?
    ensures Announce(cfg, hs, k).events ==
      [HypothesisFound(hs[k], k + 1, Progress(k + 1, cfg.expected), Summary(cfg.show, k + 1, hs[k]).value)] + Announce(cfg, hs, k + 1).events
    ensures Announce(cfg, hs, k).raised == Announce(cfg, hs, k + 1).raised
  {
  }

  lemma {:induction false} AnnounceRaises(cfg: Config, hs: seq<Json>, k: nat)
    requires k <= |hs|
    decreases |hs| - k
    ensures var r := Announce(cfg, hs, k);
      r.raised ==> Summary(cfg.show, k + |r.events| + 1, hs[k + |r.events|]).None?
  {
    if k < |hs| && Summary(cfg.show, k + 1, hs[k]).Some? {
      AnnounceRaises(cfg, hs, k + 1);
      AnnounceCons(cfg, hs, k);
    }
  }

  datatype StepResult = StepResult(state: State, events: seq<OutEvent>, raised: bool)

  /**
   * One upstream event: the tool bookkeeping, the event itself, then for a
   * text delta the hypotheses that the re-scanned buffer has beyond the
   * count already reported. `raised` means building a summary raised, which
   * ends the generator.
   */
  function Step(cfg: Config, st: State, ev: StreamEvent): (r: StepResult)
    ensures |r.events| >= 1 && r.events[0] == Forward(ev)
    ensures r.state.tools == Correlate(cfg.duration, st.tools, ev)
    ensures !ev.Text? ==> r.state.buffer == st.buffer && r.state.extracted == st.extracted && !r.raised && |r.events| == 1
    ensures ev.Text? ==> r.state.buffer == st.buffer + ev.data
    ensures ev.Text? && !r.raised ==> r.state.extracted == Max(st.extracted, |cfg.extract(st.buffer + ev.data)|)
    ensures ev.Text? ==> st.extracted + |r.events| - 1 <= Max(st.extracted, |cfg.extract(st.buffer + ev.data)|)
    ensures !r.raised ==> r.state.extracted == st.extracted + |r.events| - 1
    ensures forall i :: 1 <= i < |r.events| ==> r.events[i].HypothesisFound?
  {
    var tools := Correlate(cfg.duration, st.tools, ev);
    if !ev.Text? then StepResult(st.(tools := tools), [Forward(ev)], false)
    else
      var buffer := st.buffer + ev.data;
      var hs := cfg.extract(buffer);
      if |hs| <= st.extracted then StepResult(State(buffer, st.extracted, tools), [Forward(ev)], false)
      else
        var a := Announce(cfg, hs, st.extracted);
        var count := st.extracted + |a.events| + (if a.raised then 1 else 0);
        StepResult(State(buffer, count, tools), [Forward(ev)] + a.events, a.raised)
  }

  /** A tool output with nothing pending is forwarded and otherwise ignored. */
  lemma UnmatchedOutputIgnored(cfg: Config, st: State, ev: StreamEvent)
    requires ev.ToolOutputEvent? && |st.tools.pending| == 0
    ensures Step(cfg, st, ev) == StepResult(st, [Forward(ev)], false)
  {
  }

  /**
   * After a text delta, the events following the forwarded one announce the
   * new hypotheses in order, the i-th with id `extracted + i`.
   */
  lemma StepAnnounces(cfg: Config, st: State, ev: StreamEvent)
    requires ev.Text?
    ensures var r := Step(cfg, st, ev); var hs := cfg.extract(st.buffer + ev.data);
      forall i :: 1 <= i < |r.events| ==> Announces(cfg, r.events[i], hs[st.extracted + i - 1], st.extracted + i)
  {
    var hs := cfg.extract(st.buffer + ev.data);
    if |hs| > st.extracted {
      var a := Announce(cfg, hs, st.extracted);
      var events := Step(cfg, st, ev).events;
      forall i | 1 <= i < |events|
        ensures Announces(cfg, events[i], hs[st.extracted + i - 1], st.extracted + i)
      {
        AnnounceReports(cfg, hs, st.extracted, i - 1);
        assert events[i] == a.events[i - 1];
      }
    }
  }

  /** A step raises exactly at the first new hypothesis whose summary cannot be built. */
  lemma StepRaises(cfg: Config, st: State, ev: StreamEvent)
    requires ev.Text?
    ensures var r := Step(cfg, st, ev); var hs := cfg.extract(st.buffer + ev.data);
      r.raised ==> (st.extracted + |r.events| - 1 < |hs| &&
        Summary(cfg.show, st.extracted + |r.events|, hs[st.extracted + |r.events| - 1]).None?)
  {
    var hs := cfg.extract(st.buffer + ev.data);
    if |hs| > st.extracted {
      AnnounceRaises(cfg, hs, st.extracted);
    }
  }

  datatype Outcome = Outcome(events: seq<OutEvent>, state: State, raised: bool)

  /** The fold over the upstream events, stopping where a step raises. */
  function Feed(cfg: Config, st: State, evs: seq<StreamEvent>): (r: Outcome)
    decreases |evs|
    ensures forall i :: 0 <= i < |r.events| ==> !r.events[i].ExtractionComplete?
    ensures |evs| == 0 ==> r == Outcome([], st, false)
  {
    if |evs| == 0 then Outcome([], st, false)
    else
      var s := Step(cfg, st, evs[0]);
      if s.raised then Outcome(s.events, s.state, true)
      else
        var rest := Feed(cfg, s.state, evs[1..]);
        Outcome(s.events + rest.events, rest.state, rest.raised)
  }

  /** The closing event: only when something was found or some tool call completed. */
  function Finish(cfg: Config, st: State): (r: seq<OutEvent>)
    ensures |r| <= 1
    ensures |r| == 1 <==> st.extracted > 0 || |st.tools.completed| > 0
    ensures |r| == 1 ==> r[0] == ExtractionComplete(st.extracted, cfg.expected, st.tools.completed,
      CompleteMessage(st.extracted, cfg.expected, |st.tools.completed|))
  {
    var done := st.tools.completed;
    if st.extracted > 0 || |done| > 0 then
      [ExtractionComplete(st.extracted, cfg.expected, done, CompleteMessage(st.extracted, cfg.expected, |done|))]
    else []
  }

  /**
   * The whole generator: the fold from the initial state, then the closing
   * event unless it raised. `extraction_complete` comes at most once and
   * last, and exactly when the run did not raise and found a hypothesis or
   * completed a tool call.
   */
  function Run(cfg: Config, evs: seq<StreamEvent>): (r: Outcome)
    ensures forall i :: 0 <= i < |r.events| && r.events[i].ExtractionComplete? ==> i == |r.events| - 1
    ensures (|r.events| > 0 && r.events[|r.events| - 1].ExtractionComplete?) <==>
      (!r.raised && (r.state.extracted > 0 || |r.state.tools.completed| > 0))
    ensures r.raised ==> forall i :: 0 <= i < |r.events| ==> !r.events[i].ExtractionComplete?
    ensures |r.events| > 0 && r.events[|r.events| - 1].ExtractionComplete? ==>
      r.events[|r.events| - 1] == ExtractionComplete(r.state.extracted, cfg.expected, r.state.tools.completed,
        CompleteMessage(r.state.extracted, cfg.expected, |r.state.tools.completed|))
  {
    var f := Feed(cfg, Init, evs);
    if f.raised then f else Outcome(f.events + Finish(cfg, f.state), f.state, false)
  }

  // ---- Projections of the output stream ----

  /** The upstream events as re-yielded. */
  function Forwards(outs: seq<OutEvent>): seq<StreamEvent> {
    if |outs| == 0 then []
    else (if outs[0].Forward? then [outs[0].event] else []) + Forwards(outs[1..])
  }

  /** The `hypothesis_found` events, in order. */
  function Found(outs: seq<OutEvent>): seq<OutEvent> {
    if |outs| == 0 then []
    else (if outs[0].HypothesisFound? then [outs[0]] else []) + Found(outs[1..])
  }

  lemma {:induction false} ForwardsConcat(a: seq<OutEvent>, b: seq<OutEvent>)
    ensures Forwards(a + b) == Forwards(a) + Forwards(b)
  {
    if |a| == 0 {
      assert a + b == b;
    } else {
      assert (a + b)[0] == a[0];
      assert (a + b)[1..] == a[1..] + b;
      ForwardsConcat(a[1..], b);
    }
  }

  lemma {:induction false} FoundConcat(a: seq<OutEvent>, b: seq<OutEvent>)
    ensures Found(a + b) == Found(a) + Found(b)
  {
    if |a| == 0 {
      assert a + b == b;
    } else {
      assert (a + b)[0] == a[0];
      assert (a + b)[1..] == a[1..] + b;
      FoundConcat(a[1..], b);
    }
  }

  /** Each step re-yields exactly its own event. */
  lemma StepForwardsItsEvent(cfg: Config, st: State, ev: StreamEvent)
    ensures Forwards(Step(cfg, st, ev).events) == [ev]
  {
    var out := Step(cfg, st, ev).events;
    assert out == [out[0]] + out[1..];
    ForwardsConcat([out[0]], out[1..]);
    NoForwards(out[1..]);
  }

  lemma {:induction false} NoForwards(outs: seq<OutEvent>)
    requires forall i :: 0 <= i < |outs| ==> outs[i].HypothesisFound?
    ensures Forwards(outs) == []
  {
    if |outs| > 0 {
      NoForwards(outs[1..]);
    }
  }

  /**
   * Every upstream event is re-yielded unchanged and in order; when a step
   * raises, the events up to and including the one that raised were.
   */
  lemma {:induction false} FeedForwardsAll(cfg: Config, st: State, evs: seq<StreamEvent>)
    ensures !Feed(cfg, st, evs).raised ==> Forwards(Feed(cfg, st, evs).events) == evs
    ensures Feed(cfg, st, evs).raised ==> 0 < |Forwards(Feed(cfg, st, evs).events)| && Forwards(Feed(cfg, st, evs).events) <= evs
    decreases |evs|
  {
    if |evs| > 0 {
      var s := Step(cfg, st, evs[0]);
      StepForwardsItsEvent(cfg, st, evs[0]);
      if !s.raised {
        FeedForwardsAll(cfg, s.state, evs[1..]);
        var rest := Feed(cfg, s.state, evs[1..]);
        ForwardsConcat(s.events, rest.events);
        assert evs == [evs[0]] + evs[1..];
      }
    }
  }

  /** The buffer is the concatenation of every text delta so far. */
  lemma {:induction false} FeedBuffer(cfg: Config, st: State, evs: seq<StreamEvent>)
    ensures !Feed(cfg, st, evs).raised ==> Feed(cfg, st, evs).state.buffer == st.buffer + Texts(evs)
    decreases |evs|
  {
    if |evs| > 0 {
      var s := Step(cfg, st, evs[0]);
      if !s.raised {
        FeedBuffer(cfg, s.state, evs[1..]);
        assert s.state.buffer == st.buffer + TextOf(evs[0]);
        assert Texts(evs) == TextOf(evs[0]) + Texts(evs[1..]);
        Assoc(st.buffer, TextOf(evs[0]), Texts(evs[1..]));
      }
    }
  }

  /** While nothing raises, the fold does the tool bookkeeping of every event, in order. */
  lemma {:induction false} FeedTools(cfg: Config, st: State, evs: seq<StreamEvent>)
    decreases |evs|
    ensures !Feed(cfg, st, evs).raised ==> Feed(cfg, st, evs).state.tools == CorrelateAll(cfg.duration, st.tools, evs)
  {
    if |evs| > 0 {
      var s := Step(cfg, st, evs[0]);
      if !s.raised {
        FeedTools(cfg, s.state, evs[1..]);
      }
    }
  }

  // ---- What is announced ----

  /** The extractor only ever adds to its result as the text grows, as `extract_hypotheses` does. */
  ghost predicate Grows(cfg: Config) {
    forall a: string, b: string :: cfg.extract(a) <= cfg.extract(a + b)
  }

  /** The count reported so far is the number of hypotheses in the buffer. */
  predicate Counted(cfg: Config, st: State) {
    st.extracted == |cfg.extract(st.buffer)|
  }

  /** `outs` announce `hs[k..]`, in order, the i-th with id k + i + 1. */
  predicate AnnouncesFrom(cfg: Config, outs: seq<OutEvent>, hs: seq<Json>, k: nat) {
    && k <= |hs|
    && |outs| == |hs| - k
    && forall i :: 0 <= i < |outs| ==> Announces(cfg, outs[i], hs[k + i], k + i + 1)
  }

  lemma AnnouncesFromConcat(cfg: Config, a: seq<OutEvent>, b: seq<OutEvent>, h1: seq<Json>, h2: seq<Json>, k: nat)
    requires h1 <= h2
    requires AnnouncesFrom(cfg, a, h1, k) && AnnouncesFrom(cfg, b, h2, |h1|)
    ensures AnnouncesFrom(cfg, a + b, h2, k)
  {
    forall i | 0 <= i < |a + b| ensures Announces(cfg, (a + b)[i], h2[k + i], k + i + 1) {
      if i < |a| {
        assert (a + b)[i] == a[i] && h2[k + i] == h1[k + i];
      } else {
        assert (a + b)[i] == b[i - |a|];
      }
    }
  }

  lemma {:induction false} FoundAll(outs: seq<OutEvent>)
    requires forall i :: 0 <= i < |outs| ==> outs[i].HypothesisFound?
    ensures Found(outs) == outs
  {
    if |outs| > 0 {
      FoundAll(outs[1..]);
      assert outs == [outs[0]] + outs[1..];
    }
  }

  /** A step that does not raise announces exactly the hypotheses its text added, and keeps the count exact. */
  lemma StepFinds(cfg: Config, st: State, ev: StreamEvent)
    requires Grows(cfg) && Counted(cfg, st)
    ensures var r := Step(cfg, st, ev);
      !r.raised ==> Counted(cfg, r.state) && AnnouncesFrom(cfg, Found(r.events), cfg.extract(r.state.buffer), st.extracted)
  {
    var r := Step(cfg, st, ev);
    var out := r.events;
    assert out == [out[0]] + out[1..];
    FoundConcat([out[0]], out[1..]);
    FoundAll(out[1..]);
    assert Found(out) == out[1..];
    if ev.Text? && !r.raised {
      assert cfg.extract(st.buffer) <= cfg.extract(st.buffer + ev.data);
      StepAnnounces(cfg, st, ev);
    }
  }

  /**
   * While nothing raises, the fold announces every hypothesis exactly once,
   * in the extractor's order, with ids running on from the count it started
   * with: no hypothesis is skipped or repeated however the text is split.
   */
  lemma {:induction false} FeedFinds(cfg: Config, st: State, evs: seq<StreamEvent>)
    requires Grows(cfg) && Counted(cfg, st)
    decreases |evs|
    ensures var f := Feed(cfg, st, evs);
      !f.raised ==> Counted(cfg, f.state) && AnnouncesFrom(cfg, Found(f.events), cfg.extract(f.state.buffer), st.extracted)
  {
    if |evs| > 0 {
      var s := Step(cfg, st, evs[0]);
      StepFinds(cfg, st, evs[0]);
      if !s.raised {
        FeedFinds(cfg, s.state, evs[1..]);
        var rest := Feed(cfg, s.state, evs[1..]);
        if !rest.raised {
          FeedBuffer(cfg, s.state, evs[1..]);
          assert cfg.extract(s.state.buffer) <= cfg.extract(s.state.buffer + Texts(evs[1..]));
          FoundConcat(s.events, rest.events);
          AnnouncesFromConcat(cfg, Found(s.events), Found(rest.events),
            cfg.extract(s.state.buffer), cfg.extract(rest.state.buffer), st.extracted);
        }
      }
    }
  }

  /** Every hypothesis of `hs` has a summary at its position. */
  predicate Summarisable(cfg: Config, hs: seq<Json>) {
    forall i :: 0 <= i < |hs| ==> Summary(cfg.show, i + 1, hs[i]).Some?
  }

  /** When every hypothesis the whole text yields has a summary, the fold never raises. */
  lemma {:induction false} FeedNeverRaises(cfg: Config, st: State, evs: seq<StreamEvent>)
    requires Grows(cfg)
    requires Summarisable(cfg, cfg.extract(st.buffer + Texts(evs)))
    decreases |evs|
    ensures !Feed(cfg, st, evs).raised
  {
    if |evs| > 0 {
      var ev := evs[0];
      var s := Step(cfg, st, ev);
      var all := cfg.extract(st.buffer + Texts(evs));
      assert Texts(evs) == TextOf(ev) + Texts(evs[1..]);
      Assoc(st.buffer, TextOf(ev), Texts(evs[1..]));
      assert s.state.buffer == st.buffer + TextOf(ev);
      if ev.Text? {
        var hs := cfg.extract(st.buffer + ev.data);
        assert hs <= all;
        StepRaises(cfg, st, ev);
      }
      FeedNeverRaises(cfg, s.state, evs[1..]);
    }
  }

  /**
   * The number of outputs that find a pending call, for a queue that starts
   * with `p` calls: an independent count of the pairings.
   */
  function Matched(p: nat, evs: seq<StreamEvent>): nat
    decreases |evs|
  {
    if |evs| == 0 then 0
    else if evs[0].ToolCallEvent? then Matched(p + 1, evs[1..])
    else if evs[0].ToolOutputEvent? then (if p > 0 then 1 + Matched(p - 1, evs[1..]) else Matched(p, evs[1..]))
    else Matched(p, evs[1..])
  }

  /**
   * No tool call is lost, duplicated or reordered: the paired calls followed
   * by the still-pending ones are the calls seen, in arrival order.
   */
  lemma {:induction false} KeepsCalls(duration: Duration, t: Tools, evs: seq<StreamEvent>)
    decreases |evs|
    ensures var r := CorrelateAll(duration, t, evs);
      CallsOf(r.completed) + r.pending == CallsOf(t.completed) + t.pending + Calls(evs)
  {
    if |evs| > 0 {
      var t1 := Correlate(duration, t, evs[0]);
      CorrelateKeepsCalls(duration, t, evs[0]);
      KeepsCalls(duration, t1, evs[1..]);
      var head := if evs[0].ToolCallEvent? then [evs[0].call] else [];
      assert Calls(evs) == head + Calls(evs[1..]);
      Assoc(CallsOf(t.completed) + t.pending, head, Calls(evs[1..]));
    }
  }

  /** One interaction is added per output that found a pending call, and never otherwise. */
  lemma {:induction false} CountsPairs(duration: Duration, t: Tools, evs: seq<StreamEvent>)
    decreases |evs|
    ensures |CorrelateAll(duration, t, evs).completed| == |t.completed| + Matched(|t.pending|, evs)
  {
    if |evs| > 0 {
      CountsPairs(duration, Correlate(duration, t, evs[0]), evs[1..]);
    }
  }

  /** The i-th output paired with the i-th call, for as many outputs as there are. */
  function Zip(duration: Duration, cs: seq<ToolCall>, os: seq<ToolOutput>): (r: seq<Interaction>)
    requires |os| <= |cs|
    ensures |r| == |os|
  {
    seq(|os|, i requires 0 <= i < |os| => Pair(duration, cs[i], os[i]))
  }

  /** No output ever arrives ahead of its call: every prefix has at most as many outputs as calls, counting `p` queued. */
  predicate Disciplined(p: nat, evs: seq<StreamEvent>) {
    forall j :: 0 <= j <= |evs| ==> |Outputs(evs[..j])| <= p + |Calls(evs[..j])|
  }

  lemma DisciplinedTail(p: nat, evs: seq<StreamEvent>)
    requires |evs| > 0 && Disciplined(p, evs)
    ensures evs[0].ToolOutputEvent? ==> p > 0
    ensures Disciplined(if evs[0].ToolCallEvent? then p + 1 else if evs[0].ToolOutputEvent? then p - 1 else p, evs[1..])
  {
    assert evs[..1] == [evs[0]];
    assert evs[..1][1..] == [];
    var p' := if evs[0].ToolCallEvent? then p + 1 else if evs[0].ToolOutputEvent? then p - 1 else p;
    forall j | 0 <= j <= |evs[1..]| ensures |Outputs(evs[1..][..j])| <= p' + |Calls(evs[1..][..j])| {
      assert evs[..j + 1][1..] == evs[1..][..j];
      assert |Outputs(evs[..j + 1])| <= p + |Calls(evs[..j + 1])|;
    }
  }

  /**
   * When outputs never run ahead of calls, pairing is positional: the i-th
   * output goes with the i-th call, and the calls not yet answered wait in
   * order.
   */
  lemma {:induction false} FifoPairing(duration: Duration, t: Tools, evs: seq<StreamEvent>)
    requires Disciplined(|t.pending|, evs)
    decreases |evs|
    ensures var cs := t.pending + Calls(evs);
      && |Outputs(evs)| <= |cs|
      && CorrelateAll(duration, t, evs).completed == t.completed + Zip(duration, cs, Outputs(evs))
      && CorrelateAll(duration, t, evs).pending == cs[|Outputs(evs)|..]
  {
    if |evs| == 0 {
      assert t.pending + Calls(evs) == t.pending;
    } else {
      var ev := evs[0];
      var t1 := Correlate(duration, t, ev);
      DisciplinedTail(|t.pending|, evs);
      FifoPairing(duration, t1, evs[1..]);
      var cs, os := Calls(evs[1..]), Outputs(evs[1..]);
      if ev.ToolCallEvent? {
        assert Calls(evs) == [ev.call] + cs && Outputs(evs) == os;
        FifoCall(duration, t, ev.call, cs, os);
      } else if ev.ToolOutputEvent? {
        assert Calls(evs) == cs && Outputs(evs) == [ev.out] + os;
        FifoOutput(duration, t, ev.out, cs, os);
      } else {
        assert Calls(evs) == cs && Outputs(evs) == os;
      }
    }
  }

  lemma FifoCall(duration: Duration, t: Tools, c: ToolCall, cs: seq<ToolCall>, os: seq<ToolOutput>)
    requires |os| <= |t.pending + [c] + cs|
    ensures t.pending + ([c] + cs) == t.pending + [c] + cs
  {
    Assoc(t.pending, [c], cs);
  }

  lemma FifoOutput(duration: Duration, t: Tools, o: ToolOutput, cs: seq<ToolCall>, os: seq<ToolOutput>)
    requires |t.pending| > 0
    requires |os| <= |t.pending[1..] + cs|
    ensures var calls := t.pending + cs;
      && |[o] + os| <= |calls|
      && t.completed + [Pair(duration, t.pending[0], o)] + Zip(duration, t.pending[1..] + cs, os) ==
        t.completed + Zip(duration, calls, [o] + os)
      && (t.pending[1..] + cs)[|os|..] == calls[|[o] + os|..]
  {
    var calls := t.pending + cs;
    assert calls[1..] == t.pending[1..] + cs;
    var z := Zip(duration, calls, [o] + os);
    assert z == [Pair(duration, t.pending[0], o)] + Zip(duration, t.pending[1..] + cs, os);
    Assoc(t.completed, [Pair(duration, t.pending[0], o)], Zip(duration, t.pending[1..] + cs, os));
  }

  /** From an empty queue, the interactions pair the i-th call with the i-th output and keep its tool name. */
  lemma PairsInOrder(duration: Duration, evs: seq<StreamEvent>)
    requires Disciplined(0, evs)
    ensures var done := CorrelateAll(duration, Tools([], []), evs).completed;
      && |Outputs(evs)| <= |Calls(evs)|
      && done == Zip(duration, Calls(evs), Outputs(evs))
      && |done| == |Outputs(evs)|
      && forall i :: 0 <= i < |done| ==> done[i].toolName == Names(Calls(evs))[i]
  {
    var t := Tools([], []);
    FifoPairing(duration, t, evs);
    var cs, os := Calls(evs), Outputs(evs);
    assert t.pending + cs == cs;
    var done := CorrelateAll(duration, t, evs).completed;
    assert done == t.completed + Zip(duration, cs, os);
    assert t.completed + Zip(duration, cs, os) == Zip(duration, cs, os);
    forall i | 0 <= i < |done| ensures done[i].toolName == Names(cs)[i] {
      assert done[i] == Pair(duration, cs[i], os[i]);
    }
  }

  /** Every upstream event is re-yielded, in order; the closing event re-yields nothing. */
  lemma RunForwards(cfg: Config, evs: seq<StreamEvent>)
    ensures !Run(cfg, evs).raised ==> Forwards(Run(cfg, evs).events) == evs
    ensures Run(cfg, evs).raised ==> 0 < |Forwards(Run(cfg, evs).events)| && Forwards(Run(cfg, evs).events) <= evs
  {
    var f := Feed(cfg, Init, evs);
    FeedForwardsAll(cfg, Init, evs);
    if !f.raised {
      ForwardsConcat(f.events, Finish(cfg, f.state));
    }
  }

  /**
   * Starting from an empty buffer, a run that does not raise announces the
   * hypotheses of the whole text, each once, in order, with ids 1, 2, ...;
   * the closing count is their number.
   */
  lemma RunFinds(cfg: Config, evs: seq<StreamEvent>)
    requires Grows(cfg) && cfg.extract("") == []
    ensures var r := Run(cfg, evs);
      !r.raised ==> (r.state.buffer == Texts(evs) && r.state.extracted == |cfg.extract(Texts(evs))|
        && AnnouncesFrom(cfg, Found(r.events), cfg.extract(Texts(evs)), 0))
  {
    var f := Feed(cfg, Init, evs);
    FeedFinds(cfg, Init, evs);
    FeedBuffer(cfg, Init, evs);
    if !f.raised {
      assert "" + Texts(evs) == Texts(evs);
      FoundConcat(f.events, Finish(cfg, f.state));
    }
  }

  /** A run that does not raise hands over the tool bookkeeping of the whole stream. */
  lemma RunTools(cfg: Config, evs: seq<StreamEvent>)
    ensures !Run(cfg, evs).raised ==> Run(cfg, evs).state.tools == CorrelateAll(cfg.duration, Tools([], []), evs)
  {
    FeedTools(cfg, Init, evs);
  }

  /** A run raises only when some hypothesis of the whole text has no summary. */
  lemma RunNeverRaises(cfg: Config, evs: seq<StreamEvent>)
    requires Grows(cfg) && Summarisable(cfg, cfg.extract(Texts(evs)))
    ensures !Run(cfg, evs).raised
  {
    assert "" + Texts(evs) == Texts(evs);
    FeedNeverRaises(cfg, Init, evs);
  }
}

=== FILE: pipeline.dfy ===
/**
 * `run_stream_with_extraction` end to end: the SDK's events translated as
 * `run_stream` does, folded with `extract_hypotheses` as the extractor.
 */
module Pipeline {
  import opened Wrappers
  import opened Json
  import opened Fences
  import opened Extractor
  import opened ToolEvents
  import opened Messages
  import opened Orchestrator

  /** The research context; only `number_of_hypothesis` is read by the generator. */
  datatype ResearchContext = ResearchContext(problemSpaceTitle: string, numberOfHypothesis: int)

  /** `expected_count`: the context's `number_of_hypothesis`, None without a context. */
  function ExpectedCount(ctx: Option<ResearchContext>): (r: Option<int>)
    ensures r.Some? <==> ctx.Some?
    ensures r.Some? ==> r.value == ctx.value.numberOfHypothesis
    ensures ExpectedTruthy(r) <==> ctx.Some? && ctx.value.numberOfHypothesis != 0
  {
    match ctx
    case Some(c) => Some(c.numberOfHypothesis)
    case None => None
  }

  function Configure(parse: Parser, show: Show, duration: Duration, ctx: Option<ResearchContext>): Config {
    Config(b => Extract(parse, b), ExpectedCount(ctx), show, duration)
  }

  /** The generator's events for the SDK's events `raws`. */
  function RunWithExtraction(parse: Parser, show: Show, duration: Duration, ctx: Option<ResearchContext>,
                             raws: seq<RawEvent>): (r: Outcome)
    ensures |r.events| > 0 && r.events[|r.events| - 1].ExtractionComplete? ==>
      r.events[|r.events| - 1].expected == ExpectedCount(ctx)
  {
    Run(Configure(parse, show, duration, ctx), TranslateAll(parse, show, raws))
  }

  /** `extract_hypotheses` never retracts a hypothesis as text arrives, and finds none in empty text. */
  lemma ExtractorGrows(parse: Parser, show: Show, duration: Duration, ctx: Option<ResearchContext>)
    ensures Grows(Configure(parse, show, duration, ctx))
    ensures Configure(parse, show, duration, ctx).extract("") == []
  {
    var cfg := Configure(parse, show, duration, ctx);
    forall a: string, b: string ensures cfg.extract(a) <= cfg.extract(a + b) {
      ExtractExtend(parse, a, b);
    }
    ShortNoBlocks("");
  }

  /** The buffer the generator scans ends as all the SDK's text deltas. */
  lemma ExtractsStreamedText(parse: Parser, show: Show, duration: Duration, ctx: Option<ResearchContext>, raws: seq<RawEvent>)
    ensures Configure(parse, show, duration, ctx).extract(Texts(TranslateAll(parse, show, raws))) == Extract(parse, Deltas(raws))
  {
    TranslateKeepsText(parse, show, raws);
  }

  /** Every event the SDK stream produces for the client is passed through unchanged and in order. */
  lemma ForwardsEverything(parse: Parser, show: Show, duration: Duration, ctx: Option<ResearchContext>, raws: seq<RawEvent>)
    ensures var r := RunWithExtraction(parse, show, duration, ctx, raws);
      !r.raised ==> Forwards(r.events) == TranslateAll(parse, show, raws)
  {
    RunForwards(Configure(parse, show, duration, ctx), TranslateAll(parse, show, raws));
  }

  /**
   * A run that does not raise announces exactly the hypotheses
   * `extract_hypotheses` finds in all the streamed text: the i-th
   * `hypothesis_found` carries the i-th dict and id i + 1, with the
   * progress string for that id.
   */
  lemma AnnouncesAllHypotheses(parse: Parser, show: Show, duration: Duration, ctx: Option<ResearchContext>,
                               raws: seq<RawEvent>)
    ensures var r := RunWithExtraction(parse, show, duration, ctx, raws);
      var hs := Extract(parse, Deltas(raws));
      var found := Found(r.events);
      !r.raised ==> (
        && |found| == |hs|
        && r.state.extracted == |hs|
        && forall i :: 0 <= i < |found| ==>
          && found[i].HypothesisFound?
          && found[i].data == hs[i]
          && found[i].id == i + 1
          && found[i].progress == Progress(i + 1, ExpectedCount(ctx)))
  {
    var cfg := Configure(parse, show, duration, ctx);
    var evs := TranslateAll(parse, show, raws);
    var hs := Extract(parse, Deltas(raws));
    ExtractorGrows(parse, show, duration, ctx);
    RunFinds(cfg, evs);
    ExtractsStreamedText(parse, show, duration, ctx, raws);
    var r := Run(cfg, evs);
    if !r.raised {
      var found := Found(r.events);
      forall i | 0 <= i < |found|
        ensures found[i].HypothesisFound? && found[i].data == hs[i] && found[i].id == i + 1
        ensures found[i].progress == Progress(i + 1, ExpectedCount(ctx))
      {
        assert Announces(cfg, found[i], hs[i], i + 1);
      }
    }
  }

  /** Every announced dict is a validated hypothesis whose `_id` is the event's id. */
  lemma AnnouncedAreStamped(parse: Parser, show: Show, duration: Duration, ctx: Option<ResearchContext>,
                            raws: seq<RawEvent>)
    ensures var r := RunWithExtraction(parse, show, duration, ctx, raws);
      var found := Found(r.events);
      !r.raised ==> forall i :: 0 <= i < |found| ==>
        found[i].HypothesisFound? && IsHypothesis(found[i].data, found[i].id)
  {
    var r := RunWithExtraction(parse, show, duration, ctx, raws);
    AnnouncesAllHypotheses(parse, show, duration, ctx, raws);
    if !r.raised {
      StampedInOrder(parse, Deltas(raws), Found(r.events));
    }
  }

  lemma StampedInOrder(parse: Parser, buffer: string, found: seq<OutEvent>)
    requires |found| == |Extract(parse, buffer)|
    requires forall i :: 0 <= i < |found| ==>
      found[i].HypothesisFound? && found[i].data == Extract(parse, buffer)[i] && found[i].id == i + 1
    ensures forall i :: 0 <= i < |found| ==> IsHypothesis(found[i].data, found[i].id)
  {
    ExtractedAreHypotheses(parse, buffer);
  }

  /**
   * A run that does not raise ends with `extraction_complete` exactly when a
   * hypothesis was found or a tool call completed; it reports the total, the
   * expected count and the interactions paired from the stream.
   */
  lemma CompletionReportsTotals(parse: Parser, show: Show, duration: Duration, ctx: Option<ResearchContext>,
                                raws: seq<RawEvent>)
    ensures var r := RunWithExtraction(parse, show, duration, ctx, raws);
      var n := |Extract(parse, Deltas(raws))|;
      var done := CorrelateAll(duration, Tools([], []), TranslateAll(parse, show, raws)).completed;
      !r.raised ==> (
        && (|r.events| > 0 && r.events[|r.events| - 1].ExtractionComplete? <==> n > 0 || |done| > 0)
        && (n > 0 || |done| > 0 ==>
          r.events[|r.events| - 1] == ExtractionComplete(n, ExpectedCount(ctx), done, CompleteMessage(n, ExpectedCount(ctx), |done|))))
  {
    var cfg := Configure(parse, show, duration, ctx);
    var evs := TranslateAll(parse, show, raws);
    ExtractorGrows(parse, show, duration, ctx);
    RunFinds(cfg, evs);
    RunTools(cfg, evs);
    TranslateKeepsText(parse, show, raws);
  }

  /**
   * When outputs never arrive ahead of their calls, the interactions pair the
   * i-th call with the i-th output, and their tool names are the SDK's call
   * names in order.
   */
  lemma InteractionsPairInOrder(parse: Parser, show: Show, duration: Duration, ctx: Option<ResearchContext>,
                                raws: seq<RawEvent>)
    requires Disciplined(0, TranslateAll(parse, show, raws))
    ensures var evs := TranslateAll(parse, show, raws);
      var done := CorrelateAll(duration, Tools([], []), evs).completed;
      && |Outputs(evs)| <= |Calls(evs)|
      && done == Zip(duration, Calls(evs), Outputs(evs))
      && |done| == OutputCount(raws) <= |CallNames(raws)|
      && forall i :: 0 <= i < |done| ==> done[i].toolName == CallNames(raws)[i]
  {
    var evs := TranslateAll(parse, show, raws);
    PairsInOrder(duration, evs);
    TranslateKeepsCalls(parse, show, raws);
    TranslateKeepsOutputs(parse, show, raws);
  }

  /** A claim whose excerpt can be formatted: a string, a list, or no claim at all. */
  predicate FormattableClaim(h: Json) {
    h.JObject? && match Lookup(h.fields, "claim")
      case None => true
      case Some(c) => c.JString? || c.JArray?
  }

  /** When every extracted hypothesis has a formattable claim, the generator runs to the end. */
  lemma FormattableClaimsNeverRaise(parse: Parser, show: Show, duration: Duration, ctx: Option<ResearchContext>,
                                    raws: seq<RawEvent>)
    requires forall i :: 0 <= i < |Extract(parse, Deltas(raws))| ==> FormattableClaim(Extract(parse, Deltas(raws))[i])
    ensures !RunWithExtraction(parse, show, duration, ctx, raws).raised
  {
    var cfg := Configure(parse, show, duration, ctx);
    var evs := TranslateAll(parse, show, raws);
    ExtractorGrows(parse, show, duration, ctx);
    TranslateKeepsText(parse, show, raws);
    var hs := cfg.extract(Texts(evs));
    forall i | 0 <= i < |hs| ensures Summary(show, i + 1, hs[i]).Some? {
      assert FormattableClaim(hs[i]);
    }
    RunNeverRaises(cfg, evs);
  }
}

=== FILE: text.dfy ===
/** Character and string helpers with the meaning Python gives them. */
module Text {

  /** Python's `str.isspace` on one character; a regex `\s` in a `str` pattern matches the same set. */
  predicate IsSpace(c: char) {
    var n := c as int;
    || n == 0x20
    || 0x09 <= n <= 0x0D
    || 0x1C <= n <= 0x1F
    || n == 0x85
    || n == 0xA0
    || n == 0x1680
    || 0x2000 <= n <= 0x200A
    || n == 0x2028
    || n == 0x2029
    || n == 0x202F
    || n == 0x205F
    || n == 0x3000
  }

  /** Every character of `s` in `[lo, hi)` is whitespace. */
  predicate SpaceBetween(s: string, lo: int, hi: int)
    requires 0 <= lo && hi <= |s|
  {
    forall j :: lo <= j < hi ==> IsSpace(s[j])
  }

  predicate AllSpace(s: string) {
    SpaceBetween(s, 0, |s|)
  }

  /** Neither end of `s` is whitespace (the shape `str.strip` leaves behind). */
  predicate Stripped(s: string) {
    |s| == 0 || (!IsSpace(s[0]) && !IsSpace(s[|s| - 1]))
  }

  /** Length of the longest all-whitespace prefix of `s` (what a greedy `\s*` consumes). */
  function LeadingSpace(s: string): (n: nat)
    ensures n <= |s|
    ensures SpaceBetween(s, 0, n)
    ensures n < |s| ==> !IsSpace(s[n])
  {
    if |s| > 0 && IsSpace(s[0]) then
      1 + LeadingSpace(s[1..])
    else
      0
  }

  /** A whitespace prefix that stops at a non-space (or at the end) is the one `LeadingSpace` measures. */
  lemma LeadingSpaceExact(s: string, n: nat)
    requires n <= |s| && SpaceBetween(s, 0, n)
    requires n < |s| ==> !IsSpace(s[n])
    ensures LeadingSpace(s) == n
  {
  }

  /** Once `s` has a non-space character, appending text does not change its leading whitespace. */
  lemma LeadingSpaceExtend(s: string, t: string)
    requires LeadingSpace(s) < |s|
    ensures LeadingSpace(s + t) == LeadingSpace(s)
  {
    var n := LeadingSpace(s);
    assert (s + t)[n] == s[n];
    LeadingSpaceExact(s + t, n);
  }

  /** `s` with its trailing whitespace removed (Python's `str.rstrip()`). */
  function TrimEnd(s: string): (r: string)
    ensures r <= s
    ensures SpaceBetween(s, |r|, |s|)
    ensures |r| == 0 || !IsSpace(r[|r| - 1])
  {
    if |s| > 0 && IsSpace(s[|s| - 1]) then
      TrimEnd(s[..|s| - 1])
    else
      s
  }

  /** Trimming text that ends in a non-space followed only by whitespace removes exactly that whitespace. */
  lemma TrimEndExact(s: string, t: string)
    requires |s| == 0 || !IsSpace(s[|s| - 1])
    requires AllSpace(t)
    ensures TrimEnd(s + t) == s
  {
    var r := TrimEnd(s + t);
    assert |s| > 0 ==> (s + t)[|s| - 1] == s[|s| - 1];
    assert forall k :: |s| <= k < |s + t| ==> IsSpace((s + t)[k]) by {
      forall k | |s| <= k < |s + t| ensures IsSpace((s + t)[k]) {
        assert (s + t)[k] == t[k - |s|];
      }
    }
    assert r == (s + t)[..|r|];
  }

  /** Python's `str.strip()`: both leading and trailing whitespace removed. */
  function Strip(s: string): (r: string)
    ensures Stripped(r)
    ensures |r| <= |s|
  {
    var n := LeadingSpace(s);
    var r := TrimEnd(s[n..]);
    assert |r| > 0 ==> r[0] == s[n];
    r
  }

  /** What `strip()` keeps: the text after the leading whitespace, up to where only whitespace remains. */
  lemma StripKeepsMiddle(s: string)
    ensures var n := LeadingSpace(s);
      var r := Strip(s);
      n + |r| <= |s| && r == s[n..n + |r|] && SpaceBetween(s, n + |r|, |s|)
  {
    var n := LeadingSpace(s);
    var r := Strip(s);
    assert r == TrimEnd(s[n..]);
  }

  /** Stripping text that is already stripped changes nothing. */
  lemma StripStripped(s: string)
    requires Stripped(s)
    ensures Strip(s) == s
  {
    LeadingSpaceExact(s, 0);
    assert s[0..] == s;
    TrimEndExact(s, "");
    assert s + "" == s;
  }

  /** Python's `s[:n]` for a non-negative `n`. */
  function Take<T>(s: seq<T>, n: nat): (r: seq<T>)
    ensures r <= s
    ensures |r| == if |s| < n then |s| else n
  {
    if |s| < n then s else s[..n]
  }

  predicate IsDigit(c: char) {
    '0' <= c <= '9'
  }

  predicate AllDigits(s: string) {
    forall j :: 0 <= j < |s| ==> IsDigit(s[j])
  }

  /** The number a string of decimal digits denotes. */
  function DecimalValue(s: string): nat
    requires AllDigits(s)
  {
    if |s| == 0 then 0
    else
      assert AllDigits(s[..|s| - 1]) by {
        var p := s[..|s| - 1];
        forall j | 0 <= j < |p| ensures IsDigit(p[j]) {
          assert p[j] == s[j];
        }
      }
      DecimalValue(s[..|s| - 1]) * 10 + (s[|s| - 1] as int - '0' as int)
  }

  function DigitChar(d: nat): (c: char)
    requires d < 10
    ensures IsDigit(c) && c as int - '0' as int == d
  {
    (d + '0' as int) as char
  }

  /** Python's `str(n)` for a non-negative int: its decimal digits, without leading zeros. */
  function NatToString(n: nat): (r: string)
    ensures |r| >= 1
    ensures AllDigits(r)
    ensures DecimalValue(r) == n
    ensures r[0] == '0' ==> r == "0"
  {
    if n < 10 then [DigitChar(n)]
    else
      var p := NatToString(n / 10);
      var r := p + [DigitChar(n % 10)];
      assert r[..|r| - 1] == p;
      r
  }

  /** Python's `str(i)` for any int: a minus sign before the digits of a negative number. */
  function IntToString(i: int): (r: string)
    ensures |r| >= 1
    ensures i >= 0 ==> AllDigits(r) && DecimalValue(r) == i
    ensures i < 0 ==> r[0] == '-' && AllDigits(r[1..]) && DecimalValue(r[1..]) == -i
  {
    if i >= 0 then NatToString(i)
    else
      var d := NatToString(-i);
      assert ("-" + d)[1..] == d;
      "-" + d
  }

  lemma Assoc<T>(a: seq<T>, b: seq<T>, c: seq<T>)
    ensures a + b + c == a + (b + c)
  {
  }

  /** Python's `sep.join(parts)`. */
  function Join(sep: string, parts: seq<string>): (r: string)
    ensures |parts| == 0 ==> r == ""
    ensures |parts| == 1 ==> r == parts[0]
    ensures |parts| == 2 ==> r == parts[0] + sep + parts[1]
  {
    if |parts| == 0 then ""
    else if |parts| == 1 then parts[0]
    else parts[0] + sep + Join(sep, parts[1..])
  }

  /** Joining one more part adds the separator and that part at the end. */
  lemma {:induction false} JoinAppend(sep: string, parts: seq<string>, x: string)
    requires |parts| >= 1
    ensures Join(sep, parts + [x]) == Join(sep, parts) + sep + x
    decreases |parts|
  {
    if |parts| > 1 {
      assert (parts + [x])[1..] == parts[1..] + [x];
      JoinAppend(sep, parts[1..], x);
      Assoc(parts[0] + sep, Join(sep, parts[1..]) + sep, x);
      Assoc(parts[0] + sep, Join(sep, parts[1..]), sep);
    }
  }
}

=== FILE: tool_events.dfy ===
/**
 * `run_stream`: the agent SDK's event stream turned into the pipeline's own
 * events, with a complete record of every tool call and tool output.
 */
module ToolEvents {
  import opened Wrappers
  import opened Text
  import opened Json
  import opened Extractor

  /** Python's `str(v)` (equally, f-string formatting) of a value that is not a string. */
  type Show = Json -> string

  /** `str(v)`: a string is its own text; any other value is formatted by `show`. */
  function Str(show: Show, v: Json): string {
    if v.JString? then v.s else show(v)
  }

  /**
   * An SDK stream event, reduced to what `run_stream` reads. `at` is the
   * ISO-format clock reading taken when the event is handled; `arguments`
   * is None when the raw tool call has no `arguments` attribute.
   */
  datatype RawEvent =
    | TextDelta(delta: string)
    | ToolCallItem(name: string, arguments: Option<string>, at: string)
    | ToolOutputItem(output: Json, at: string)
    | MessageItem(text: string)
    | OtherEvent

  /** The `tool_interaction` of a `tool_call` event. `inputArgs` is JNull for Python's None. */
  datatype ToolCall = ToolCall(toolName: string, timestamp: string, inputArgs: Json)

  /** The `tool_interaction` of a `tool_output` event. */
  datatype ToolOutput = ToolOutput(timestamp: string, output: Json, outputLength: nat)

  /** The events `run_stream` yields: `text`, `tool_call`, `tool_output` and `message`. */
  datatype StreamEvent =
    | Text(data: string)
    | ToolCallEvent(data: string, call: ToolCall)
    | ToolOutputEvent(result: Json, out: ToolOutput)
    | Message(data: string)

  const RawArgumentsKey: string := "raw_arguments"

  /** The single-member dict that keeps arguments which are not valid JSON. */
  function RawArguments(a: string): Json {
    JObject([Field(RawArgumentsKey, JString(a))])
  }

  /**
   * `input_args`: missing or empty arguments give None, JSON arguments their
   * decoded value, and anything else is kept verbatim under `raw_arguments`.
   */
  function ParseArguments(parse: Parser, arguments: Option<string>): (r: Json)
    ensures arguments.None? || arguments == Some("") ==> r == JNull
    ensures arguments.Some? && arguments.value != "" && parse(arguments.value).Some? ==>
      r == parse(arguments.value).value
    ensures arguments.Some? && arguments.value != "" && parse(arguments.value).None? ==>
      r.JObject? && |r.fields| == 1 && Lookup(r.fields, RawArgumentsKey) == Some(JString(arguments.value))
  {
    match arguments
    case None => JNull
    case Some(a) =>
      if a == "" then JNull
      else
        match parse(a)
        case Some(v) => v
        case None => RawArguments(a)
  }

  const DisplayLimit: nat := 50

  /** A parameter value as displayed: a string longer than 50 characters becomes its first 47 and "...". */
  function TruncateForDisplay(v: Json): (r: Json)
    ensures !v.JString? ==> r == v
    ensures v.JString? ==> r.JString? && |r.s| <= DisplayLimit
    ensures v.JString? && |v.s| <= DisplayLimit ==> r == v
    ensures v.JString? && |v.s| > DisplayLimit ==> |r.s| == DisplayLimit && r.s[..47] == v.s[..47] && r.s[47..] == "..."
  {
    if v.JString? && |v.s| > DisplayLimit then JString(v.s[..47] + "...") else v
  }

  /** Truncating twice is truncating once: a displayed value is never cut again. */
  lemma TruncateIdempotent(v: Json)
    ensures TruncateForDisplay(TruncateForDisplay(v)) == TruncateForDisplay(v)
  {
  }

  /** One displayed parameter, `key: value`. */
  function Param(show: Show, f: Field): string {
    f.key + ": " + Str(show, TruncateForDisplay(f.value))
  }

  /** One `key: value` string per parameter, in order, each value cut for display. */
  function Params(show: Show, fs: seq<Field>): (r: seq<string>)
    ensures |r| == |fs|
    ensures forall i :: 0 <= i < |fs| ==>
      fs[i].key + ": " <= r[i] && r[i][|fs[i].key| + 2..] == Str(show, TruncateForDisplay(fs[i].value))
  {
    seq(|fs|, i requires 0 <= i < |fs| => Param(show, fs[i]))
  }

  const CallPrefix: string := "Calling tool: "
  const SearchTool: string := "literature_search"

  /**
   * The `data` string of a `tool_call` event. Only a non-empty dict adds
   * detail: the query of a literature search, or else the first two
   * parameters.
   */
  function Display(show: Show, name: string, args: Json): (r: string)
    ensures CallPrefix + name <= r
    ensures !(args.JObject? && |args.fields| > 0) ==> r == CallPrefix + name
  {
    var head := CallPrefix + name;
    if args.JObject? && |args.fields| > 0 then
      if name == SearchTool && HasKey(args.fields, "query") then
        PrefixAppend(head, " - Searching for: '" + Str(show, Lookup(args.fields, "query").value) + "'");
        head + (" - Searching for: '" + Str(show, Lookup(args.fields, "query").value) + "'")
      else
        PrefixAppend(head, " - Parameters: " + Join(", ", Params(show, Take(args.fields, 2))));
        head + (" - Parameters: " + Join(", ", Params(show, Take(args.fields, 2))))
    else head
  }

  lemma PrefixAppend(a: string, b: string)
    ensures a <= a + b
  {
    assert (a + b)[..|a|] == a;
  }

  /** A literature search shows its query in full, however long: only parameters are truncated. */
  lemma SearchShowsWholeQuery(show: Show, fs: seq<Field>, q: string)
    requires Lookup(fs, "query") == Some(JString(q))
    ensures Display(show, SearchTool, JObject(fs)) == CallPrefix + SearchTool + " - Searching for: '" + q + "'"
  {
  }

  /** Parameters after the second never reach the display string. */
  lemma DisplayShowsTwoParams(show: Show, name: string, fs: seq<Field>, extra: seq<Field>)
    requires |fs| >= 2
    requires name != SearchTool
    ensures Display(show, name, JObject(fs + extra)) == Display(show, name, JObject(fs))
  {
    assert Take(fs + extra, 2) == Take(fs, 2);
  }

  /**
   * With two or more parameters, and no query to search for, the display
   * shows the first two as `key: value`, joined by ", ".
   */
  lemma DisplayFirstTwoParams(show: Show, name: string, fs: seq<Field>)
    requires |fs| >= 2
    requires name != SearchTool || !HasKey(fs, "query")
    ensures Display(show, name, JObject(fs)) ==
      CallPrefix + name + " - Parameters: " + Param(show, fs[0]) + ", " + Param(show, fs[1])
  {
    var two := Take(fs, 2);
    assert two == [fs[0], fs[1]];
    var ps := Params(show, two);
    assert |ps| == 2 && ps[0] == Param(show, fs[0]) && ps[1] == Param(show, fs[1]);
    assert ps[1..] == [ps[1]];
    var j := Join(", ", ps);
    assert j == ps[0] + ", " + ps[1];
    var head := CallPrefix + name;
    assert Display(show, name, JObject(fs)) == head + (" - Parameters: " + j);
    Assoc(head, " - Parameters: ", j);
    Assoc(head + " - Parameters: ", ps[0] + ", ", ps[1]);
    Assoc(head + " - Parameters: ", ps[0], ", ");
  }

  /** A single parameter, when there is no query to search for, is shown as its `key: value`. */
  lemma DisplayOneParam(show: Show, name: string, f: Field)
    requires name != SearchTool || !HasKey([f], "query")
    ensures Display(show, name, JObject([f])) == CallPrefix + name + " - Parameters: " + Param(show, f)
  {
    var fs := [f];
    assert Take(fs, 2) == fs;
    var ps := Params(show, fs);
    assert |ps| == 1 && ps[0] == Param(show, f);
    var head := CallPrefix + name;
    assert Display(show, name, JObject(fs)) == head + (" - Parameters: " + ps[0]);
    Assoc(head, " - Parameters: ", ps[0]);
  }

  /** A long string parameter is cut to 47 characters and "...". */
  lemma LongParamTruncated(show: Show, name: string, k: string, v: string)
    requires name != SearchTool
    requires |v| > DisplayLimit
    ensures Display(show, name, JObject([Field(k, JString(v))])) ==
      CallPrefix + name + " - Parameters: " + k + ": " + v[..47] + "..."
  {
    var f := Field(k, JString(v));
    DisplayOneParam(show, name, f);
    var pre := CallPrefix + name + " - Parameters: ";
    assert Param(show, f) == k + ": " + (v[..47] + "...");
    Assoc(pre, k + ": ", v[..47] + "...");
    Assoc(pre + (k + ": "), v[..47], "...");
    Assoc(pre, k, ": ");
  }

  /**
   * Arguments that are not JSON are shown as the `raw_arguments` parameter,
   * also for a literature search, which then has no `query` key.
   */
  lemma UnparsedArgumentsShownRaw(parse: Parser, show: Show, name: string, a: string)
    requires a != "" && parse(a).None?
    ensures Display(show, name, ParseArguments(parse, Some(a))) ==
      CallPrefix + name + " - Parameters: " + RawArgumentsKey + ": " + TruncateForDisplay(JString(a)).s
  {
    var fs := [Field(RawArgumentsKey, JString(a))];
    assert fs[0].key != "query" by {
      assert RawArgumentsKey[0] != "query"[0];
    }
    assert Lookup(fs[1..], "query") == None;
    assert !HasKey(fs, "query");
    DisplayOneParam(show, name, fs[0]);
  }

  /** `output_length`: the length of `str(output)` for a truthy output, else 0. */
  function OutputLength(show: Show, output: Json): (r: nat)
    ensures !Truthy(output) ==> r == 0
    ensures Truthy(output) ==> r == |Str(show, output)|
  {
    if Truthy(output) then |Str(show, output)| else 0
  }

  /** For a string output the length is always its own length: the empty string is falsy and has length 0. */
  lemma StringOutputLength(show: Show, s: string)
    ensures OutputLength(show, JString(s)) == |s|
  {
  }

  /** What `run_stream` yields for one SDK event: nothing for an empty message or an unrelated event. */
  function Translate(parse: Parser, show: Show, e: RawEvent): (r: Option<StreamEvent>)
    ensures e.TextDelta? <==> r.Some? && r.value.Text?
    ensures e.ToolCallItem? <==> r.Some? && r.value.ToolCallEvent?
    ensures e.ToolOutputItem? <==> r.Some? && r.value.ToolOutputEvent?
    ensures e.TextDelta? ==> r.value.data == e.delta
    ensures e.ToolCallItem? ==> r.value.call.toolName == e.name && r.value.call.timestamp == e.at
    ensures e.ToolCallItem? ==> r.value.call.inputArgs == ParseArguments(parse, e.arguments)
    ensures e.ToolCallItem? ==> r.value.data == Display(show, e.name, r.value.call.inputArgs)
    ensures e.ToolOutputItem? ==> r.value.result == e.output && r.value.out.output == e.output && r.value.out.timestamp == e.at
    ensures e.ToolOutputItem? ==> r.value.out.outputLength == OutputLength(show, e.output)
    ensures r.Some? && r.value.Message? ==> e.MessageItem? && e.text != ""
  {
    match e
    case TextDelta(d) => Some(Text(d))
    case ToolCallItem(name, arguments, at) =>
      var args := ParseArguments(parse, arguments);
      Some(ToolCallEvent(Display(show, name, args), ToolCall(name, at, args)))
    case ToolOutputItem(o, at) => Some(ToolOutputEvent(o, ToolOutput(at, o, OutputLength(show, o))))
    case MessageItem(t) => if t == "" then None else Some(Message(t))
    case OtherEvent => None
  }

  function OptionToSeq<T>(o: Option<T>): (r: seq<T>)
    ensures |r| <= 1
  {
    if o.Some? then [o.value] else []
  }

  /** The whole `run_stream` generator over a finite SDK stream. */
  function TranslateAll(parse: Parser, show: Show, es: seq<RawEvent>): (r: seq<StreamEvent>)
    ensures |r| <= |es|
  {
    if |es| == 0 then [] else OptionToSeq(Translate(parse, show, es[0])) + TranslateAll(parse, show, es[1..])
  }

  /** The text an event contributes to the extraction buffer. */
  function TextOf(ev: StreamEvent): string {
    if ev.Text? then ev.data else ""
  }

  /** All text deltas of a stream, concatenated. */
  function Texts(evs: seq<StreamEvent>): string {
    if |evs| == 0 then "" else TextOf(evs[0]) + Texts(evs[1..])
  }

  function Deltas(es: seq<RawEvent>): string {
    if |es| == 0 then "" else (if es[0].TextDelta? then es[0].delta else "") + Deltas(es[1..])
  }

  /** The tool calls of a stream, in order. */
  function Calls(evs: seq<StreamEvent>): (r: seq<ToolCall>)
    ensures |r| <= |evs|
  {
    if |evs| == 0 then []
    else (if evs[0].ToolCallEvent? then [evs[0].call] else []) + Calls(evs[1..])
  }

  /** The tool outputs of a stream, in order. */
  function Outputs(evs: seq<StreamEvent>): (r: seq<ToolOutput>)
    ensures |r| <= |evs|
  {
    if |evs| == 0 then []
    else (if evs[0].ToolOutputEvent? then [evs[0].out] else []) + Outputs(evs[1..])
  }

  function CallNames(es: seq<RawEvent>): seq<string> {
    if |es| == 0 then []
    else (if es[0].ToolCallItem? then [es[0].name] else []) + CallNames(es[1..])
  }

  function OutputCount(es: seq<RawEvent>): nat {
    if |es| == 0 then 0
    else (if es[0].ToolOutputItem? then 1 else 0) + OutputCount(es[1..])
  }

  function Names(calls: seq<ToolCall>): (r: seq<string>)
    ensures |r| == |calls|
  {
    seq(|calls|, i requires 0 <= i < |calls| => calls[i].toolName)
  }

  /** Translation loses no streamed text: the buffer sees exactly the SDK's deltas. */
  lemma {:induction false} TranslateKeepsText(parse: Parser, show: Show, es: seq<RawEvent>)
    ensures Texts(TranslateAll(parse, show, es)) == Deltas(es)
  {
    if |es| > 0 {
      TranslateKeepsText(parse, show, es[1..]);
      var h := OptionToSeq(Translate(parse, show, es[0]));
      TextsConcat(h, TranslateAll(parse, show, es[1..]));
      if |h| == 1 {
        assert h[1..] == [];
      }
    }
  }

  /** Translation loses no tool call: the calls carry the SDK's tool names, in order. */
  lemma {:induction false} TranslateKeepsCalls(parse: Parser, show: Show, es: seq<RawEvent>)
    ensures Names(Calls(TranslateAll(parse, show, es))) == CallNames(es)
  {
    if |es| > 0 {
      TranslateKeepsCalls(parse, show, es[1..]);
      var h := OptionToSeq(Translate(parse, show, es[0]));
      var rest := TranslateAll(parse, show, es[1..]);
      CallsConcat(h, rest);
      NamesConcat(Calls(h), Calls(rest));
      CallNameOf(parse, show, es[0]);
    }
  }

  /** One SDK event contributes its tool name exactly when it is a tool call. */
  lemma CallNameOf(parse: Parser, show: Show, e: RawEvent)
    ensures Names(Calls(OptionToSeq(Translate(parse, show, e)))) == (if e.ToolCallItem? then [e.name] else [])
  {
    var h := OptionToSeq(Translate(parse, show, e));
    if |h| == 1 {
      assert h[1..] == [];
    }
  }

  lemma NamesConcat(a: seq<ToolCall>, b: seq<ToolCall>)
    ensures Names(a + b) == Names(a) + Names(b)
  {
  }

  /** Translation loses no tool output. */
  lemma {:induction false} TranslateKeepsOutputs(parse: Parser, show: Show, es: seq<RawEvent>)
    ensures |Outputs(TranslateAll(parse, show, es))| == OutputCount(es)
  {
    if |es| > 0 {
      TranslateKeepsOutputs(parse, show, es[1..]);
      var h := OptionToSeq(Translate(parse, show, es[0]));
      OutputsConcat(h, TranslateAll(parse, show, es[1..]));
      if |h| == 1 {
        assert h[1..] == [];
      }
    }
  }

  lemma {:induction false} TextsConcat(a: seq<StreamEvent>, b: seq<StreamEvent>)
    ensures Texts(a + b) == Texts(a) + Texts(b)
  {
    if |a| == 0 {
      assert a + b == b;
    } else {
      assert (a + b)[0] == a[0];
      assert (a + b)[1..] == a[1..] + b;
      TextsConcat(a[1..], b);
    }
  }

  lemma {:induction false} CallsConcat(a: seq<StreamEvent>, b: seq<StreamEvent>)
    ensures Calls(a + b) == Calls(a) + Calls(b)
  {
    if |a| == 0 {
      assert a + b == b;
    } else {
      assert (a + b)[0] == a[0];
      assert (a + b)[1..] == a[1..] + b;
      CallsConcat(a[1..], b);
    }
  }

  lemma {:induction false} OutputsConcat(a: seq<StreamEvent>, b: seq<StreamEvent>)
    ensures Outputs(a + b) == Outputs(a) + Outputs(b)
  {
    if |a| == 0 {
      assert a + b == b;
    } else {
      assert (a + b)[0] == a[0];
      assert (a + b)[1..] == a[1..] + b;
      OutputsConcat(a[1..], b);
    }
  }
}

=== FILE: wrappers.dfy ===
/** Optional values, standing in for Python's `None` and for calls that may fail. */
module Wrappers {

  datatype Option<+T> = None | Some(value: T)
}
